=== FILE: README.md ===
# statusbar — a Dafny model of its sequential core

statusbar is an X11 status bar written in Go. Each configured module is a
*producer* that samples a system resource on its own ticker and sends a
status string: the time, the date, network throughput, memory, the
battery or the CPU. The main loop keeps one slot per module, overwrites a
slot when its module reports, joins all slots with blanks and writes the
line to the root window's name.

This project models the logic under that fan-in as pure functions over
already-read text and decoded JSON values. It covers:

- the configuration decoders of every module;
- the application's decoding of the `status` array;
- the kernel-file parsers for `/proc/meminfo`, `/proc/stat`, the battery's
  sysfs files and the network byte counters;
- the netspeed unit scaling and `%04d` rendering;
- the slot registry and publishing loop;
- each producer's emission policy as a function of a trace of ticks and
  `done` signals.

Each Go file becomes one Dafny module: `App` (main.go), `Netspeed`,
`MemInfo` (meminfo.go), `Mem` (mem.go), `Ram`, `Battery`, `Cpu`, `Date`
and `Time`. They rest on shared modules:

- `Outcomes`: `Option`, and `Result` with `Ok`, `Err` and `Panic`. A Go
  runtime panic, such as slicing an empty file, is an outcome, not a
  precondition.
- `Decimal`: `strconv.ParseInt`, `Atoi`, the `[0-9]+` regexp, and `%d`.
- `Text`: `bufio.Scanner` lines, `strings.Fields`, `strings.Join`, and
  dropping a file's last byte.
- `JsonValue`: decoded JSON, Go's `int(float64)` and `math.Ceil`, and the
  shared `period_ms` rule.
- `Producer`: event traces and the ticker loop.
- `ProcMeminfo`: the `/proc/meminfo` scan that three files carry a copy of.

The files come from different revisions of the program. Each module is
modelled as its own file is written. For example, mem.go and meminfo.go
both declare a `MemConfig`, so they are modelled separately. The
application decoder dispatches each `type` to the decoder that module's
file defines (`NewTimeConfig`, `Decode`, `UnmarshalJSON` or `FromMap`).

The producers do not share one policy:

- Not every producer sends a status at start: mem.go and meminfo.go wait
  for the first tick.
- Not every producer can be stopped: date.go, mem.go and meminfo.go have
  no `done` case.
- A fractional `period_ms` is truncated (`1.9` gives 1 ms, `0.5` is
  rejected), except in netspeed, which rounds up.
- An empty sysfs file panics instead of producing a recoverable error.

## Model

| member | source | states |
|---|---|---|
| App.ModuleConfigFromType | main.go:139-156 | succeeds exactly for "time", "date", "netspeed", "mem", "battery" and "cpu", and the kind found has that name; any other string gives the error "invalid type " followed by the string |
| App.TypeNameRoundTrip | main.go:139-156 | every module kind is resolved again from its own type name, so the six names are distinct |
| App.DecodeAs | main.go:51-57 | the entry decodes exactly when the decoder of its kind accepts it, and the result has that kind |
| App.DecodeEntry | main.go:40-58 | an entry is accepted iff it is an object with a string `type` naming a known module whose decoder accepts it; the result's kind has that type's name; a non-object gives "invalid status field"; a missing or non-string type gives "type missing in status config"; an unknown type gives "invalid type …"; a decoder failure gives "error decoding <type> config: …" |
| App.FirstInvalid | main.go:40-58 | the index of the first rejected entry: all entries before it are accepted |
| App.DecodeModules | main.go:39-59 | succeeds iff every entry is accepted; on success there is exactly one configuration per entry, in entry order; on failure the error is that of the first rejected entry |
| App.UnmarshalAppConfig | main.go:28-61 | a document that is neither an object nor null gives "invalid config"; null, or an object without an array `status`, gives "invalid status field"; it succeeds iff every entry is accepted, with one module per entry in order |
| App.ParseConfigTable | main_test.go:7-25 | the five documents of the configuration test table get the verdicts the table expects |
| App.UnknownTypeRejects | main.go:51-54 | one entry of an unknown type after valid entries rejects the whole configuration with "invalid type …" |
| App.Apply | main.go:130 | an update writes its text into its own slot, keeps the length and leaves every other slot unchanged |
| App.Registry | main.go:125-131 | after any sequence of updates to N empty slots, the registry has N slots and slot i holds the text of the last update tagged i, or "" when there was none |
| App.Run | main.go:125-136 | one published line per update, each the blank-join of the registry after that update; a publish error only adds a "setXRootName: …" log line and changes no slot |
| App.PublishedLength | main.go:131 | for N >= 1 a published line is as long as the slots together plus N - 1 blanks |
| App.PublishedInOrder | main.go:131 | the published line shows the slots in index order: it splits at any slot boundary into the joins of the slots before and after |
| App.UpdateIsLocal | main.go:130 | appending an update changes only the slot it is tagged with |
| Netspeed.ReadCounter | netspeed.go:17-24 | a read error is returned as is; an empty file panics; otherwise the content minus its last byte is read by ParseInt |
| Netspeed.ReadRxTxBytes | netspeed.go:13-36 | the rx file is read and parsed first and its failure is the result; then the tx file likewise; both values only when both succeed |
| Netspeed.ReadsKernelCounters | netspeed.go:13-36 | counter files holding a decimal int64 and a newline read back as exactly those counters |
| Netspeed.UnmarshalJSON | netspeed.go:66-85 | accepts iff the document is a map with a non-empty string `device` and a number `period_ms` > 0; the device is kept and `PeriodMs` is the least integer not below `period_ms`, so >= 1; on error the receiver is unchanged; the three error texts in order of the checks |
| Netspeed.UnmarshalTable | netspeed_test.go:7-28 | the seven documents of the unmarshalling test table are accepted or rejected as the table expects |
| Netspeed.Scale | netspeed.go:39-57 | unit " " iff the rate is below 10000, "K" iff it is in [10000, 10000000), "M" iff it is at least 10000000; the scaled value times the unit's factor is the rate |
| Netspeed.ShownBounds | netspeed.go:41-46 | every rate in [0, 10^10) shows as an integer below 10000, and a scaled one as at least 10 |
| Netspeed.ShownUnscaled | netspeed.go:39-47 | a rate below 10000 is shown as its own truncation, with unit " " |
| Netspeed.Pad04 | netspeed.go:58 | `%04d` gives at least four characters whose digits read back as the number, with a leading '-' for negative numbers, and exactly four for 0..9999 |
| Netspeed.FormatLayout | netspeed.go:38-59 | for rates up to 10 GB/s the line is exactly 29 characters longer than the device name; the transmit rate's digits and unit come before the receive rate's, and each depends on its own rate only |
| Netspeed.Emissions | netspeed.go:87-129 | the producer's rate statuses are the differences between each sample and the one before it, starting from the first reading; its error statuses are the failed readings' texts in order; one status per reading plus one per failure; every status carries the id |
| Netspeed.RoundsAreDifferences | netspeed.go:104-122 | each tick sends its failure text, if any, then the difference from the previous sample, which it then replaces |
| Netspeed.RoundsAreBlocks | netspeed.go:104-122 | the rounds are one block per tick, in order: that tick's failure text, if its read failed, then that tick's own difference |
| Netspeed.RatesTelescope | netspeed.go:113-122 | the byte and time differences over the ticks add up to the change from the first sample to the last: nothing is counted twice or lost at a rollover |
| Netspeed.StartsWithZeroRates | netspeed.go:89-96 | the first statuses are the first reading's error text, if any, then the zero-rate line |
| Netspeed.StopsAtDone | netspeed.go:101-127 | nothing after the first `done` is sent |
| Netspeed.AfterFailureFromZero | netspeed.go:105-122 | after a failed reading the next rate is measured against counters (0, 0) |
| ProcMeminfo.ScanLine | meminfo.go:53-68 | a "MemTotal" line succeeds iff a non-zero first digit run follows the key, and sets total to 1000 times it; a "MemAvailable" line succeeds iff a digit run follows, zero allowed, and sets free; other lines change nothing; every failure is "parsing /proc/meminfo failed" |
| ProcMeminfo.Scan | meminfo.go:51-74 | the scan fails only with "parsing /proc/meminfo failed" and reports whole multiples of 1000 bytes |
| ProcMeminfo.LaterLinesIgnored | meminfo.go:70-73 | once both values are non-zero, the remaining lines cannot change the result |
| ProcMeminfo.UnrelatedLineIgnored | meminfo.go:53-68 | a line that neither key starts can be removed without changing the result |
| ProcMeminfo.NoKeyGivesZero | meminfo.go:48-76 | without either key the result is (0, 0) and no error |
| ProcMeminfo.ReadsKernelLayout | meminfo.go:51-74 | head lines MemTotal, MemFree and MemAvailable in the kernel's field order give total and free as 1000 times MemTotal and MemAvailable |
| MemInfo.Decode | meminfo.go:24-32 | accepts iff `period_ms` is a number whose truncation is at least 1, e.g. not 0.5; the period is that many milliseconds; the error text says "time config", as written |
| MemInfo.ReadMemInfo | meminfo.go:41-77 | an open error gives "error reading /proc/meminfo: …"; a parse failure gives "parsing /proc/meminfo failed"; an empty file gives (0, 0); results are in whole kB |
| MemInfo.ReadsKernelFile | meminfo.go:41-77 | a /proc/meminfo whose head lines follow the kernel's field order reads as 1000 times MemTotal and MemAvailable |
| MemInfo.Emissions | meminfo.go:94-111 | no status at start; one status per tick whose read succeeded, in order; failed reads send nothing |
| MemInfo.NeverStops | meminfo.go:99-111 | a `done` changes nothing the producer sends |
| Mem.FromMap | mem.go:19-27 | accepts iff `period_ms` is a number whose truncation is at least 1; the period is that many milliseconds; the error text says "time config", as written |
| Mem.ReadMemInfo | mem.go:58-94 | same outcomes as the meminfo.go reader, over mem.go's copy of the scan |
| Mem.ReadsKernelFile | mem.go:58-94 | a /proc/meminfo whose head lines follow the kernel's field order reads as 1000 times MemTotal and MemAvailable |
| Mem.Emissions | mem.go:29-44 | no status at start; one status per tick whose read succeeded; failed reads are only logged |
| Mem.NeverStops | mem.go:35-42 | the `for range tick.C` loop has no exit: a `done` changes nothing |
| Ram.ReadRAM | ram.go:20-56 | an open error is returned as is; otherwise the outcomes of the shared scan |
| Ram.ReadsKernelFile | ram.go:20-56 | a /proc/meminfo whose head lines follow the kernel's field order reads as 1000 times MemTotal and MemAvailable |
| Ram.Emissions | ram.go:58-83 | one status at start and one per tick before `done`, all carrying the id; a failed read is shown as its error's text, a successful one as the usage |
| Battery.Render | battery.go:29-37 | the plug icon iff on AC and the battery icon otherwise, then a blank, the `% 3d` capacity (blanks, then the `%d` text with no leading zero, the field as wide as sign-or-blank plus digits and at least three) and '%'; six characters for capacities 0..99 |
| Battery.RenderRoundTrip | battery.go:29-37 | the rendered status reads back as the same capacity and AC state |
| Battery.ReadBattery | battery.go:39-59 | a failed read of either file names the capacity path; an empty capacity file panics, and so does an empty AC file after a non-empty capacity file; a capacity that Atoi rejects gives "failed to atoi " + the capacity text + ": " + the Atoi error; it succeeds iff both files are read and non-empty and the capacity minus its last byte passes Atoi; capacity is that number; AC is online iff the AC file minus its last byte is not exactly "0" |
| Battery.ReadsKernelFiles | battery.go:39-59 | a capacity file with a decimal and a newline and an AC file "1\n" or "0\n" read back as that status |
| Battery.AcFailureNamesCapacityPath | battery.go:47-50 | an unreadable AC file is reported with the capacity file's path, which differs from the AC file's path |
| Battery.ReadBatteryIntended | battery.go:47-50 | the corrected reader names the AC file's path when that file cannot be read, and agrees with ReadBattery in every other case |
| Battery.Decode | battery.go:61-76 | the period is checked first ("invalid period in battery config"); then `battery` must be a string, possibly empty ("invalid battery in battery config") |
| Battery.Emissions | battery.go:80-105 | one status at start and one per tick before `done`, all carrying the id; a failed read is shown as the literal "error", a successful one as the rendered status |
| Cpu.Decode | cpu.go:17-26 | accepts iff `period_ms` is a number whose truncation is at least 1; the period is that many milliseconds |
| Cpu.SumFields | cpu.go:51-60 | succeeds iff every field after the label parses, with their sum; otherwise the error of the first field that does not |
| Cpu.GetCpuTimings | cpu.go:37-66 | an open error is returned; no first line gives (0, 0) and no error; otherwise it succeeds iff the line has at least five fields and all after the label parse; total is their sum and idle is field 4; a field that does not parse is an error; a line without fields, or with fewer than five fields that all parse, panics |
| Cpu.IdleWithinTotal | cpu.go:50-64 | when no column is negative, any column, idle among them, is at most the sum |
| Cpu.TimingsIdleWithinTotal | cpu.go:37-66 | a successful read with no negative column reports idle <= total |
| Cpu.ReadsKernelStat | cpu.go:37-66 | a /proc/stat whose first line is "cpu" followed by at least four counters gives their sum and the fourth counter |
| Date.Decode | date.go:21-29 | accepts iff `period_ms` is a number whose truncation is at least 1; the period is that many milliseconds |
| Date.Emissions | date.go:31-52 | the start time, then the time of every tick in order |
| Date.NeverStops | date.go:41-50 | the producer has no exit: a `done` changes nothing it sends |
| Time.NewTimeConfig | time.go:14-22 | succeeds iff `period_ms` is a number whose truncation is at least 1, with that many milliseconds; otherwise the zero TimeConfig and "invalid period in time config" |
| Time.Emissions | time.go:24-44 | the start time, then the time of every tick before the first `done`, each tagged with the producer's id |
| Time.StopsAtDone | time.go:33-42 | nothing after the first `done` is sent |
| Time.AllTagged | time.go:26-28 | every status carries the producer's id |
| JsonValue.PeriodMs | meminfo.go:25-30 | the shared rule: a number whose Go `int()` truncation is at least 1, which holds exactly for numbers >= 1; the period is the number's integer part |
| JsonValue.AsMap | main.go:29-31 | an object gives its members; `null` gives an empty map; any other value is a type error |
| Decimal.ParseIntAs | meminfo.go:56 | `strconv.ParseInt(s, 10, 64)` succeeds iff s is an optionally signed run of digits whose value fits int64, and returns that value |
| Decimal.FormatIntRoundTrip | netspeed.go:21 | ParseInt reads back every rendered int64 |
| Decimal.FirstDigitRun | meminfo.go:50-55 | `[0-9]+`.FindString: empty iff there is no digit; otherwise the maximal digit run starting at the first digit |
| Text.DropLast | battery.go:45 | `s[:len(s)-1]` panics iff s is empty and otherwise drops exactly the last character |
| Text.ScanUnlines | meminfo.go:48-52 | scanning a file written as newline-terminated lines gives those lines back |
| Text.FieldsOfJoin | cpu.go:49 | `strings.Fields` splits a single-blank join of words back into the words |
| Text.JoinLength | main.go:131 | a join of n >= 1 strings is as long as the strings plus n - 1 separators |
| Producer.LoopEmits | ram.go:73-82 | the ticker loop sends, in order, what every handled tick produces: the ticks before the first `done` when it listens for one, all of them otherwise |
| Producer.Periodic | battery.go:94-103 | a producer with an initial status sends one status at start and one per handled tick |
| Producer.SkipOnError | meminfo.go:99-111 | a producer that skips failed reads sends exactly the successful readings, in order |

## Left out

- X11 publishing (`setXRootName`, the xgb connection): the sink's outcome is an input to `App.Run`.
- Goroutines, channels, tickers, `select`, the forwarding goroutines and Go's random choice between ready cases: the order of ticks and `done` signals is an input trace.
- Real time is not modelled. This leaves out netspeed.go:98, which starts its ticker with `time.Duration(cfg.PeriodMs)` (nanoseconds, not milliseconds), and the RAM producer's fixed one-second period.
- File and OS I/O: every reader takes the outcome of reading its file (`Text.FileRead`) as a parameter. The scanner's 64 KiB token limit and its read errors are not modelled.
- Characters stand for bytes. The emoji are single code points or code-point pairs, so string lengths count code points, not UTF-8 bytes.
- `encoding/json` itself: configurations are decoded `JsonValue.Json` values. Syntax errors and the exact Go error texts of a failed decode into a map are approximated.
- Floating point: JSON numbers and netspeed rates are exact reals, not float64. The usage percentages of the memory, RAM and CPU statuses are not modelled (their `String` methods), nor is the CPU producer, whose whole output is such a percentage.
- `time.Format` layouts of the date and time statuses: those producers send the tick's time, not its rendering.
- Logging (`log.Printf`, `log.Println`), apart from the publish-error line of `App.Run`.
- `strconv.Quote` escaping of unprintable characters in the ParseInt error text.
- ProcMeminfo.ReadsKernelLayout: the read-back is proved for lines with one fixed gap of blanks between "Key:" and the number, not for the kernel's right-aligned column; Cpu.ReadsKernelStat likewise for one blank after "cpu", where the kernel writes two.
- ProcMeminfo.ScanLine: does not model int64 wrap-around of `memKb * 1000`, because kernel memory sizes stay far below 9.2e15 kB.
- Cpu.SumFields: does not model int64 wrap-around of the running total, for the same reason.
- MemInfo.Decode: the period is the whole number of milliseconds times 1e6 ns as an unbounded integer; Go's `time.Duration(periodMs) * time.Millisecond` wraps in int64 above about 9.2e12 ms (about 292 years), which is not modelled.
- Mem.FromMap: the period is the whole number of milliseconds times 1e6 ns as an unbounded integer; Go's `time.Duration(periodMs) * time.Millisecond` wraps in int64 above about 9.2e12 ms (about 292 years), which is not modelled.
- Cpu.Decode: the period is the whole number of milliseconds times 1e6 ns as an unbounded integer; Go's `time.Duration(periodMs) * time.Millisecond` wraps in int64 above about 9.2e12 ms (about 292 years), which is not modelled.
- Date.Decode: the period is the whole number of milliseconds times 1e6 ns as an unbounded integer; Go's `time.Duration(periodMs) * time.Millisecond` wraps in int64 above about 9.2e12 ms (about 292 years), which is not modelled.
- Time.NewTimeConfig: the period is the whole number of milliseconds times 1e6 ns as an unbounded integer; Go's `time.Duration(periodMs) * time.Millisecond` wraps in int64 above about 9.2e12 ms (about 292 years), which is not modelled.
- Battery.Decode: the period is the whole number of milliseconds times 1e6 ns as an unbounded integer; Go's `time.Duration(periodMs) * time.Millisecond` wraps in int64 above about 9.2e12 ms (about 292 years), which is not modelled.
- JsonValue.PeriodMs: Go's `int()` of a float64 outside the int64 range gives an implementation-specific value; the model truncates exactly.
- Netspeed.UnmarshalJSON: the period is the exact ceiling of `period_ms`; Go's `int(math.Ceil(x))` of a float64 outside the int64 range is not modelled.
- Netspeed.ReadCounter: states only that an empty file panics, not the panic's text.
- Netspeed.Show: needs a positive elapsed time. With timestamps that increase from tick to tick (`Netspeed.ElapsedPositive`), every rate status has one.
- Readings that panic are outside the producer traces, which take `Reading` values (a value or an error).
- Decoders that fail after assigning part of the receiver (battery.go:67) return `Err` without the partly assigned receiver; the caller discards it.

## Findings

| source | as written | input that shows it | evidently intended | confidence | as-written member | corrected member |
|---|---|---|---|---|---|---|
| battery.go:47-50 | when the AC supply's `online` file cannot be read, the error names `p`, the capacity file's path | capacity file "57\n" reads fine and /sys/class/power_supply/AC/online is missing: the error says "failed to read /sys/class/power_supply/BAT0/capacity: …" | name `POWER_SUPPLY_AC_ONLINE`, the file that failed | high; not executed | Battery.AcFailureNamesCapacityPath | Battery.ReadBatteryIntended |

=== FILE: app.dfy ===
/** main.go: the application configuration (a `status` array of module
    entries, each resolved by its `type` and decoded by that module) and the
    loop that keeps one status string per module and publishes their join. */
module App {
  import opened Outcomes
  import opened Text
  import opened JsonValue
  import Time
  import Date
  import Netspeed
  import Mem
  import Battery
  import Cpu

  // ---------------------------------------------------------------------
  // getModuleConfigFromTypeString
  // ---------------------------------------------------------------------

  datatype ModuleKind = TimeKind | DateKind | NetspeedKind | MemKind | BatteryKind | CpuKind

  /** The `type` string naming each kind of module. */
  function TypeName(k: ModuleKind): string
  {
    match k
    case TimeKind => "time"
    case DateKind => "date"
    case NetspeedKind => "netspeed"
    case MemKind => "mem"
    case BatteryKind => "battery"
    case CpuKind => "cpu"
  }

  predicate KnownType(t: string)
  {
    t == "time" || t == "date" || t == "netspeed" || t == "mem" || t == "battery" || t == "cpu"
  }

  /** getModuleConfigFromTypeString: the kind a `type` string names. */
  function ModuleConfigFromType(t: string): (r: Result<ModuleKind>)
    ensures r.Ok? || r.Err?
    ensures r.Ok? <==> KnownType(t)
    ensures r.Ok? ==> TypeName(r.value) == t
    ensures r.Err? ==> r.msg == "invalid type " + t
  {
    if t == "time" then Ok(TimeKind)
    else if t == "date" then Ok(DateKind)
    else if t == "netspeed" then Ok(NetspeedKind)
    else if t == "mem" then Ok(MemKind)
    else if t == "battery" then Ok(BatteryKind)
    else if t == "cpu" then Ok(CpuKind)
    else Err("invalid type " + t)
  }

  /** Every kind is found again from its type string, so distinct kinds have
      distinct names. */
  lemma TypeNameRoundTrip(k: ModuleKind)
    ensures ModuleConfigFromType(TypeName(k)) == Ok(k)
  {
  }

  // ---------------------------------------------------------------------
  // Module configurations
  // ---------------------------------------------------------------------

  /** A decoded module entry, one variant per module. */
  datatype ModuleConfig =
    | TimeModule(time: Time.TimeConfig)
    | DateModule(date: Date.DateConfig)
    | NetspeedModule(netspeed: Netspeed.NetspeedConfig)
    | MemModule(mem: Mem.MemConfig)
    | BatteryModule(battery: Battery.BatteryConfig)
    | CpuModule(cpu: Cpu.CpuConfig)

  function KindOf(c: ModuleConfig): ModuleKind
  {
    match c
    case TimeModule(_) => TimeKind
    case DateModule(_) => DateKind
    case NetspeedModule(_) => NetspeedKind
    case MemModule(_) => MemKind
    case BatteryModule(_) => BatteryKind
    case CpuModule(_) => CpuKind
  }

  /** Whether the decoder of a kind accepts an entry. */
  predicate Decodes(k: ModuleKind, m: map<string, Json>)
  {
    match k
    case TimeKind => Time.NewTimeConfig(m).1.None?
    case DateKind => Date.Decode(m).Ok?
    case NetspeedKind => Netspeed.UnmarshalJSON(Netspeed.NetspeedConfig("", 0), Object(m)).1.None?
    case MemKind => Mem.FromMap(m).Ok?
    case BatteryKind => Battery.Decode(m).Ok?
    case CpuKind => Cpu.Decode(m).Ok?
  }

  /** The decoding of one entry by its module's decoder, into a fresh
      configuration of that kind. */
  function DecodeAs(k: ModuleKind, m: map<string, Json>): (r: Result<ModuleConfig>)
    ensures r.Ok? || r.Err?
    ensures r.Ok? <==> Decodes(k, m)
    ensures r.Ok? ==> KindOf(r.value) == k
  {
    match k
    case TimeKind =>
      var (c, e) := Time.NewTimeConfig(m);
      if e.Some? then Err(e.value) else Ok(TimeModule(c))
    case DateKind =>
      (match Date.Decode(m)
       case Ok(c) => Ok(DateModule(c))
       case Err(e) => Err(e)
       case Panic(p) => Panic(p))
    case NetspeedKind =>
      var (c, e) := Netspeed.UnmarshalJSON(Netspeed.NetspeedConfig("", 0), Object(m));
      if e.Some? then Err(e.value) else Ok(NetspeedModule(c))
    case MemKind =>
      (match Mem.FromMap(m)
       case Ok(c) => Ok(MemModule(c))
       case Err(e) => Err(e)
       case Panic(p) => Panic(p))
    case BatteryKind =>
      (match Battery.Decode(m)
       case Ok(c) => Ok(BatteryModule(c))
       case Err(e) => Err(e)
       case Panic(p) => Panic(p))
    case CpuKind =>
      (match Cpu.Decode(m)
       case Ok(c) => Ok(CpuModule(c))
       case Err(e) => Err(e)
       case Panic(p) => Panic(p))
  }

  // ---------------------------------------------------------------------
  // AppConfig.UnmarshalJSON
  // ---------------------------------------------------------------------

  datatype AppConfig = AppConfig(modules: seq<ModuleConfig>)

  /** An entry of the `status` array that is accepted: an object with a
      string `type` naming a known module whose decoder accepts it. */
  predicate ValidEntry(v: Json)
  {
    v.Object? && StringField(v.fields, "type").Some? && KnownType(v.fields["type"].s)
    && Decodes(ModuleConfigFromType(v.fields["type"].s).value, v.fields)
  }

  /** One iteration of the decoding loop. */
  function DecodeEntry(v: Json): (r: Result<ModuleConfig>)
    ensures r.Ok? || r.Err?
    ensures r.Ok? <==> ValidEntry(v)
    ensures r.Ok? ==> TypeName(KindOf(r.value)) == v.fields["type"].s
    ensures !v.Object? ==> r == Err("invalid status field")
    ensures v.Object? && StringField(v.fields, "type").None? ==> r == Err("type missing in status config")
    ensures v.Object? && StringField(v.fields, "type").Some? && !KnownType(v.fields["type"].s) ==>
              r == Err("invalid type " + v.fields["type"].s)
    ensures v.Object? && StringField(v.fields, "type").Some? && KnownType(v.fields["type"].s) && r.Err? ==>
              exists e :: r.msg == "error decoding " + v.fields["type"].s + " config: " + e
  {
    if !v.Object? then Err("invalid status field")
    else
      match StringField(v.fields, "type")
      case None => Err("type missing in status config")
      case Some(t) =>
        match ModuleConfigFromType(t)
        case Err(e) => Err(e)
        case Panic(p) => Panic(p)
        case Ok(k) =>
          match DecodeAs(k, v.fields)
          case Ok(c) => Ok(c)
          case Err(e) => Err("error decoding " + t + " config: " + e)
          case Panic(p) => Panic(p)
  }

  predicate AllValid(vs: seq<Json>)
  {
    forall k :: 0 <= k < |vs| ==> ValidEntry(vs[k])
  }

  /** Index of the first entry that is rejected. */
  function FirstInvalid(vs: seq<Json>): (k: nat)
    requires !AllValid(vs)
    ensures k < |vs| && !ValidEntry(vs[k]) && AllValid(vs[..k])
  {
    if !ValidEntry(vs[0]) then
      assert vs[..0] == [];
      0
    else
      var k := FirstInvalid(vs[1..]);
      var p := vs[..k + 1];
      forall j | 0 <= j < k + 1 ensures ValidEntry(p[j]) {
        if j > 0 { assert p[j] == vs[1..][..k][j - 1]; }
      }
      k + 1
  }

  /** The loop over the `status` array: one configuration per entry, in
      order, or the error of the first rejected entry. */
  function DecodeModules(vs: seq<Json>): (r: Result<seq<ModuleConfig>>)
    ensures r.Ok? || r.Err?
    ensures r.Ok? <==> AllValid(vs)
    ensures r.Ok? ==> |r.value| == |vs|
                      && forall k :: 0 <= k < |vs| ==> Ok(r.value[k]) == DecodeEntry(vs[k])
    ensures r.Err? ==> r.msg == DecodeEntry(vs[FirstInvalid(vs)]).msg
  {
    if |vs| == 0 then Ok([])
    else
      var head := DecodeEntry(vs[0]);
      if !head.Ok? then Err(head.msg)
      else
        var rest := DecodeModules(vs[1..]);
        if rest.Ok? then
          var ms := [head.value] + rest.value;
          assert forall k :: 1 <= k < |vs| ==> vs[k] == vs[1..][k - 1];
          Ok(ms)
        else
          assert vs[1..][FirstInvalid(vs[1..])] == vs[FirstInvalid(vs)];
          rest
  }

  /** The `status` member of a configuration document, when it is an array. */
  function StatusArray(j: Json): Option<seq<Json>>
  {
    if j.Object? && "status" in j.fields && j.fields["status"].Array? then Some(j.fields["status"].items)
    else None
  }

  /** AppConfig.UnmarshalJSON: the document must be an object (or null)
      whose `status` member is an array, and every entry must decode. */
  function UnmarshalAppConfig(j: Json): (r: Result<AppConfig>)
    ensures r.Ok? || r.Err?
    ensures r.Ok? <==> StatusArray(j).Some? && AllValid(StatusArray(j).value)
    ensures r.Ok? ==> |r.value.modules| == |j.fields["status"].items|
                      && forall k :: 0 <= k < |r.value.modules| ==>
                           Ok(r.value.modules[k]) == DecodeEntry(j.fields["status"].items[k])
    ensures !(j.Object? || j.Null?) ==> r == Err("invalid config")
    ensures (j.Object? || j.Null?) && StatusArray(j).None? ==> r == Err("invalid status field")
    ensures StatusArray(j).Some? && r.Err? ==>
              r.msg == DecodeEntry(StatusArray(j).value[FirstInvalid(StatusArray(j).value)]).msg
  {
    match AsMap(j)
    case Err(_) => Err("invalid config")
    case Panic(_) => Err("invalid config")
    case Ok(raw) =>
      if !("status" in raw && raw["status"].Array?) then Err("invalid status field")
      else
        match DecodeModules(raw["status"].items)
        case Ok(ms) => Ok(AppConfig(ms))
        case Err(e) => Err(e)
        case Panic(p) => Panic(p)
  }

  /** The configuration test table and its verdicts. */
  lemma ParseConfigTable()
    ensures UnmarshalAppConfig(Object(map["status" := Array([
              Object(map["type" := Str("time"), "period_ms" := Number(1000.0)])])])).Ok?
    ensures UnmarshalAppConfig(Object(map["err" := Array([
              Object(map["type" := Str("time"), "period_ms" := Number(1000.0)])])])).Err?
    ensures UnmarshalAppConfig(Object(map["status" := Number(2.0)])).Err?
    ensures UnmarshalAppConfig(Array([Number(1.0), Number(2.0), Number(3.0)])) == Err("invalid config")
    ensures UnmarshalAppConfig(Object(map["err" := Array([
              Object(map["type" := Str("foo"), "period_ms" := Number(1000.0)])])])).Err?
  {
    var time := Object(map["type" := Str("time"), "period_ms" := Number(1000.0)]);
    assert StringField(time.fields, "type") == Some("time");
    assert ValidEntry(time);
  }

  /** A single entry of an unknown type rejects the whole configuration,
      whatever precedes it. */
  lemma UnknownTypeRejects(before: seq<Json>, t: string, fields: map<string, Json>)
    requires AllValid(before) && !KnownType(t)
    ensures var entry := Object(fields["type" := Str(t)]);
            UnmarshalAppConfig(Object(map["status" := Array(before + [entry])])) == Err("invalid type " + t)
  {
    var entry := Object(fields["type" := Str(t)]);
    var vs := before + [entry];
    assert vs[|before|] == entry;
    assert !AllValid(vs);
    forall k | 0 <= k < |before| ensures ValidEntry(vs[k]) {
      assert vs[k] == before[k];
    }
    assert StringField(entry.fields, "type") == Some(t);
  }

  // ---------------------------------------------------------------------
  // The status registry and publishing loop
  // ---------------------------------------------------------------------

  /** A status string sent by the module with index `id`. */
  datatype Update = Update(id: nat, text: string)

  /** `status[st.id] = st.status.String()`. */
  function Apply(reg: seq<string>, u: Update): (r: seq<string>)
    requires u.id < |reg|
    ensures |r| == |reg| && r[u.id] == u.text
    ensures forall i :: 0 <= i < |reg| && i != u.id ==> r[i] == reg[i]
  {
    reg[u.id := u.text]
  }

  /** The text of the last update tagged `i`, or "" when there is none. */
  function LastFor(us: seq<Update>, i: nat): string
  {
    if |us| == 0 then ""
    else if us[|us| - 1].id == i then us[|us| - 1].text
    else LastFor(us[..|us| - 1], i)
  }

  predicate InRange(n: nat, us: seq<Update>)
  {
    forall k :: 0 <= k < |us| ==> us[k].id < n
  }

  /** The registry after a sequence of updates, starting from `n` empty slots:
      slot i holds the last text sent by module i, or "". */
  function Registry(n: nat, us: seq<Update>): (r: seq<string>)
    requires InRange(n, us)
    ensures |r| == n
    ensures forall i :: 0 <= i < n ==> r[i] == LastFor(us, i)
  {
    if |us| == 0 then seq(n, _ => "")
    else
      var prev := Registry(n, us[..|us| - 1]);
      var r := Apply(prev, us[|us| - 1]);
      r
  }

  /** One publish of the loop: the line sent to the X root window and, when
      the publish fails, the log line it leaves. */
  datatype Published = Published(line: string, log: Option<string>)

  /** The log line a failed publish leaves. */
  function LogOf(e: Option<string>): Option<string>
  {
    if e.Some? then Some("setXRootName: " + e.value) else None
  }

  /** The line published after the first k + 1 updates. */
  function LineAfter(n: nat, us: seq<Update>, k: nat): string
    requires InRange(n, us) && k < |us|
  {
    RegistryStep(n, us, k);
    Join(Registry(n, us[..k + 1]), " ")
  }

  /** The loop over received updates. `sink[k]` is the error the k-th publish
      returns, if any; it is only logged and changes no slot. */
  method Run(n: nat, us: seq<Update>, sink: seq<Option<string>>) returns (out: seq<Published>, status: seq<string>)
    requires InRange(n, us) && |sink| == |us|
    ensures |out| == |us| && status == Registry(n, us)
    ensures forall k :: 0 <= k < |us| ==> out[k].line == LineAfter(n, us, k) && out[k].log == LogOf(sink[k])
  {
    status := seq(n, _ => "");
    out := [];
    var k := 0;
    assert us[..0] == [];
    while k < |us|
      invariant 0 <= k <= |us|
      invariant |out| == k
      invariant InRange(n, us[..k]) && status == Registry(n, us[..k])
      invariant forall j :: 0 <= j < k ==> out[j] == Published(LineAfter(n, us, j), LogOf(sink[j]))
    {
      RegistryStep(n, us, k);
      status := status[us[k].id := us[k].text];
      out := out + [Published(Join(status, " "), LogOf(sink[k]))];
      k := k + 1;
    }
    assert us[..|us|] == us;
  }

  /** The registry after one more update of the sequence. */
  lemma RegistryStep(n: nat, us: seq<Update>, k: nat)
    requires InRange(n, us) && k < |us|
    ensures InRange(n, us[..k]) && InRange(n, us[..k + 1])
    ensures Registry(n, us[..k + 1]) == Registry(n, us[..k])[us[k].id := us[k].text]
  {
    assert us[..k + 1][..k] == us[..k];
  }

  /** Every published line is the join of all slots: as long as the slots
      together plus one blank between neighbours. */
  lemma PublishedLength(n: nat, us: seq<Update>)
    requires n >= 1 && InRange(n, us)
    ensures |Join(Registry(n, us), " ")| == TotalLength(Registry(n, us)) + n - 1
  {
    JoinLength(Registry(n, us), " ");
  }

  /** The published line shows the modules in index order: it splits at any
      slot boundary into the join of the slots before and after it. */
  lemma PublishedInOrder(n: nat, us: seq<Update>, i: nat)
    requires InRange(n, us) && 0 < i < n
    ensures Join(Registry(n, us), " ")
         == Join(Registry(n, us)[..i], " ") + " " + Join(Registry(n, us)[i..], " ")
  {
    JoinSplit(Registry(n, us), " ", i);
  }

  /** An update changes only its own slot of the registry. */
  lemma UpdateIsLocal(n: nat, us: seq<Update>, u: Update, i: nat)
    requires InRange(n, us) && u.id < n && i < n && i != u.id
    ensures InRange(n, us + [u])
    ensures Registry(n, us + [u])[i] == Registry(n, us)[i]
    ensures Registry(n, us + [u])[u.id] == u.text
  {
    assert (us + [u])[..|us|] == us;
  }
}

=== FILE: battery.dfy ===
/** battery.go: the battery module, following the kernel's power_supply
    class sysfs layout (a `capacity` file per battery and the `online` file
    of the AC supply, each ending in a newline). */
module Battery {
  import opened Outcomes
  import opened Decimal
  import opened Text
  import opened JsonValue
  import opened Producer

  const ACOnlinePath := "/sys/class/power_supply/AC/online"

  /** POWER_SUPPLY_CAPACITY with the battery's name filled in. */
  function CapacityPath(battery: string): string
  {
    "/sys/class/power_supply/" + battery + "/capacity"
  }

  /** The battery's name and the sampling period in nanoseconds. */
  datatype BatteryConfig = BatteryConfig(battery: string, period: int)

  /** Capacity in percent and whether the AC supply is connected. */
  datatype BatteryStatus = BatteryStatus(capacity: int, acOnline: bool)

  const PlugIcon: char := '\U{1F50C}'
  const BatteryIcon: char := '\U{1F50B}'

  /** `n` space characters. */
  function Blanks(n: nat): (s: string)
    ensures |s| == n && forall j :: 0 <= j < n ==> s[j] == ' '
  {
    if n == 0 then "" else Blanks(n - 1) + " "
  }

  /** `% 3d`: a space in place of a '+' sign, the whole padded on the left
      with spaces to three characters. */
  function SpaceSigned3(n: int): string
  {
    var t := (if n < 0 then "-" else " ") + FormatNat(if n < 0 then -n else n);
    if |t| < 3 then Blanks(3 - |t|) + t else t
  }

  /** `% 3d` is blank padding followed by the `%d` text: the field is as wide
      as the sign (a blank for a non-negative number) and digits, and at
      least three wide. */
  lemma SpaceSigned3Shape(n: int)
    ensures var d := FormatInt(n);
            var w := if n < 0 then |d| else |d| + 1;
            |SpaceSigned3(n)| == (if w < 3 then 3 else w)
            && SpaceSigned3(n) == Blanks(|SpaceSigned3(n)| - |d|) + d
  {
    var d := FormatInt(n);
    if n >= 0 {
      var t := " " + d;
      var k: nat := if |t| < 3 then 3 - |t| else 0;
      assert SpaceSigned3(n) == Blanks(k) + t;
      assert Blanks(k) + t == (Blanks(k) + " ") + d;
      assert Blanks(k) + " " == Blanks(k + 1);
    } else {
      var k: nat := if |d| < 3 then 3 - |d| else 0;
      assert SpaceSigned3(n) == Blanks(k) + d;
    }
  }

  /** BatteryStatus.String: the plug icon when on AC, else the battery icon,
      then the capacity as `% 3d` and a percent sign. */
  function Render(b: BatteryStatus): (s: string)
    ensures |s| >= 6 && s[1] == ' ' && s[|s| - 1] == '%'
    ensures s[0] == PlugIcon <==> b.acOnline
    ensures s[0] == BatteryIcon <==> !b.acOnline
    ensures 0 <= b.capacity < 100 ==> |s| == 6
    ensures var d := FormatInt(b.capacity);
            var w := if b.capacity < 0 then |d| else |d| + 1;
            |s| == 3 + (if w < 3 then 3 else w)
            && s[2..|s| - 1] == Blanks(|s| - 3 - |d|) + d
  {
    var t := SpaceSigned3(b.capacity);
    SpaceSigned3Shape(b.capacity);
    assert 0 <= b.capacity < 100 ==> |t| == 3 by {
      if 0 <= b.capacity < 100 {
        FormatNatLength(b.capacity, 2);
        assert Pow10(2) == 100 by { assert Pow10(1) == 10; }
      }
    }
    var s := [if b.acOnline then PlugIcon else BatteryIcon] + " " + t + "%";
    assert s[2..|s| - 1] == t;
    s
  }

  /** Reads a rendered status back: icon, space, padded signed number, '%'. */
  function ParseRendered(s: string): Option<BatteryStatus>
  {
    if |s| < 3 || s[1] != ' ' || s[|s| - 1] != '%' || (s[0] != PlugIcon && s[0] != BatteryIcon) then None
    else
      match ParseSigned(s[2..|s| - 1])
      case Some(v) => Some(BatteryStatus(v, s[0] == PlugIcon))
      case None => None
  }

  lemma SpacesSkipped(pad: nat, t: string)
    requires |t| > 0 && !IsSpace(t[0])
    ensures var s := Blanks(pad) + t; s[SpacePrefixLen(s)..] == t
  {
    var s := Blanks(pad) + t;
    assert SpacePrefixLen(s) == pad by {
      assert s[pad] == t[0];
      assert forall j :: 0 <= j < pad ==> s[j] == ' ';
    }
  }

  /** Reading back the padded number of a rendered capacity. */
  function ParseSigned(body: string): Option<int>
  {
    ParseSignedDigits(body[SpacePrefixLen(body)..])
  }

  /** An optional '-' and decimal digits. */
  function ParseSignedDigits(t: string): Option<int>
  {
    var neg := |t| > 0 && t[0] == '-';
    var digits := if neg then t[1..] else t;
    if |digits| == 0 || !AllDigits(digits) then None
    else
      var v: int := DigitsValue(digits);
      Some(if neg then -v else v)
  }

  lemma ParsePadded(pad: nat, core: string)
    requires |core| > 0 && !IsSpace(core[0])
    ensures ParseSigned(Blanks(pad) + core) == ParseSigned(core)
  {
    SpacesSkipped(pad, core);
    assert core[SpacePrefixLen(core)..] == core by {
      assert SpacePrefixLen(core) == 0;
    }
  }

  lemma ParseNegative(m: nat)
    requires m > 0
    ensures ParseSigned("-" + FormatNat(m)) == Some(-(m as int))
  {
    var core := "-" + FormatNat(m);
    assert SpacePrefixLen(core) == 0;
    assert core[0..] == core;
    assert core[1..] == FormatNat(m);
    FormatNatValue(m);
  }

  lemma ParseNonNegative(m: nat)
    ensures ParseSigned(FormatNat(m)) == Some(m)
  {
    var core := FormatNat(m);
    assert SpacePrefixLen(core) == 0;
    assert core[0..] == core;
    FormatNatValue(m);
  }

  lemma SignedRoundTrip(n: int)
    ensures ParseSigned(SpaceSigned3(n)) == Some(n)
  {
    if n < 0 {
      NegativeRoundTrip(n);
    } else {
      NonNegativeRoundTrip(n);
    }
  }

  lemma NegativeRoundTrip(n: int)
    requires n < 0
    ensures ParseSigned(SpaceSigned3(n)) == Some(n)
  {
    var m: nat := -n;
    var core := "-" + FormatNat(m);
    var pad: nat := if |core| < 3 then 3 - |core| else 0;
    assert SpaceSigned3(n) == Blanks(pad) + core;
    PaddedNegative(pad, m);
  }

  lemma NonNegativeRoundTrip(n: int)
    requires n >= 0
    ensures ParseSigned(SpaceSigned3(n)) == Some(n)
  {
    var m: nat := n;
    var core := " " + FormatNat(m);
    var pad: nat := if |core| < 3 then 3 - |core| else 0;
    assert SpaceSigned3(n) == Blanks(pad) + core;
    PaddedNonNegative(pad, m);
  }

  lemma PaddedNegative(pad: nat, m: nat)
    requires m > 0
    ensures ParseSigned(Blanks(pad) + ("-" + FormatNat(m))) == Some(-(m as int))
  {
    ParsePadded(pad, "-" + FormatNat(m));
    ParseNegative(m);
  }

  lemma PaddedNonNegative(pad: nat, m: nat)
    ensures ParseSigned(Blanks(pad) + (" " + FormatNat(m))) == Some(m)
  {
    var digits := FormatNat(m);
    assert Blanks(pad) + (" " + digits) == Blanks(pad) + " " + digits;
    ParsePadded(pad + 1, digits);
    ParseNonNegative(m);
  }

  /** The rendered status determines the status: no information is lost. */
  lemma RenderRoundTrip(b: BatteryStatus)
    ensures ParseRendered(Render(b)) == Some(b)
  {
    var s := Render(b);
    assert s[2..|s| - 1] == SpaceSigned3(b.capacity);
    SignedRoundTrip(b.capacity);
  }

  /** ReadBattery over the outcomes of reading the capacity file and the AC
      supply's `online` file. Both failure messages name the capacity path,
      as in battery.go. */
  function ReadBattery(battery: string, capFile: FileRead, acFile: FileRead): (r: Result<BatteryStatus>)
    ensures capFile.ReadError? ==> r == Err("failed to read " + CapacityPath(battery) + ": " + capFile.msg)
    ensures capFile == Contents("") ==> r.Panic?
    ensures capFile.Contents? && |capFile.data| > 0 && acFile.ReadError? ==>
              r == Err("failed to read " + CapacityPath(battery) + ": " + acFile.msg)
    ensures r.Ok? <==> (capFile.Contents? && acFile.Contents? && |capFile.data| > 0 && |acFile.data| > 0
                        && Atoi(capFile.data[..|capFile.data| - 1]).Ok?)
    ensures r.Ok? ==> r.value.capacity == LiteralValue(capFile.data[..|capFile.data| - 1])
    ensures r.Ok? ==> (r.value.acOnline <==> acFile.data[..|acFile.data| - 1] != "0")
    ensures capFile.Contents? && |capFile.data| > 0 && acFile == Contents("") ==> r.Panic?
    ensures capFile.Contents? && acFile.Contents? && |capFile.data| > 0 && |acFile.data| > 0
            && Atoi(capFile.data[..|capFile.data| - 1]).Err? ==>
              r == Err("failed to atoi " + capFile.data[..|capFile.data| - 1] + ": "
                       + Atoi(capFile.data[..|capFile.data| - 1]).msg)
  {
    ReadBatteryWith(battery, capFile, acFile, CapacityPath(battery))
  }

  /** The body of ReadBattery, with the path named when the AC file cannot be read. */
  function ReadBatteryWith(battery: string, capFile: FileRead, acFile: FileRead, acPathShown: string): Result<BatteryStatus>
  {
    var p := CapacityPath(battery);
    match capFile
    case ReadError(e) => Err("failed to read " + p + ": " + e)
    case Contents(capData) =>
      match DropLast(capData)
      case Ok(capStr) =>
        (match acFile
         case ReadError(e) => Err("failed to read " + acPathShown + ": " + e)
         case Contents(acData) =>
           match DropLast(acData)
           case Ok(acStr) =>
             (match Atoi(capStr)
              case Ok(c) => Ok(BatteryStatus(c, acStr != "0"))
              case Err(e) => Err("failed to atoi " + capStr + ": " + e)
              case Panic(p) => Panic(p))
           case Err(e) => Err(e)
           case Panic(p) => Panic(p))
      case Err(e) => Err(e)
      case Panic(p) => Panic(p)
  }

  /** ReadBattery as evidently intended: a failed read of the AC file names
      the AC file's path. Every other outcome is that of ReadBattery. */
  function ReadBatteryIntended(battery: string, capFile: FileRead, acFile: FileRead): (r: Result<BatteryStatus>)
    ensures capFile.Contents? && |capFile.data| > 0 && acFile.ReadError? ==>
              r == Err("failed to read " + ACOnlinePath + ": " + acFile.msg)
    ensures !(capFile.Contents? && |capFile.data| > 0 && acFile.ReadError?) ==>
              r == ReadBattery(battery, capFile, acFile)
  {
    ReadBatteryWith(battery, capFile, acFile, ACOnlinePath)
  }

  /** As written, a battery whose AC file cannot be read is reported with the
      capacity file's path, which names a file that was read successfully. */
  lemma AcFailureNamesCapacityPath(battery: string, capData: string, msg: string)
    requires |capData| > 0
    ensures ReadBattery(battery, Contents(capData), ReadError(msg))
         == Err("failed to read " + CapacityPath(battery) + ": " + msg)
    ensures ReadBattery(battery, Contents(capData), ReadError(msg))
         != ReadBatteryIntended(battery, Contents(capData), ReadError(msg))
  {
    DistinctReports(battery, msg);
  }

  /** Reading errors that name different files differ. */
  lemma DistinctReports(battery: string, msg: string)
    ensures "failed to read " + CapacityPath(battery) + ": " + msg != "failed to read " + ACOnlinePath + ": " + msg
  {
    var capPath := CapacityPath(battery);
    var a := "failed to read " + capPath + ": " + msg;
    var b := "failed to read " + ACOnlinePath + ": " + msg;
    if |battery| == 0 {
      assert a[39] == capPath[24] == '/';
      assert b[39] == ACOnlinePath[24] == 'A';
    } else {
      assert |a| != |b|;
    }
  }

  /** A kernel-formatted pair of files reads back as the status they describe. */
  lemma ReadsKernelFiles(battery: string, capacity: int, acOnline: bool)
    requires -MaxInt64 - 1 <= capacity <= MaxInt64
    ensures ReadBattery(battery, Contents(FormatInt(capacity) + "\n"), Contents(if acOnline then "1\n" else "0\n"))
         == Ok(BatteryStatus(capacity, acOnline))
  {
    var c := FormatInt(capacity) + "\n";
    var ac := if acOnline then "1\n" else "0\n";
    assert c[..|c| - 1] == FormatInt(capacity);
    assert ac[..|ac| - 1] == (if acOnline then "1" else "0");
    FormatIntRoundTrip(capacity);
    assert Atoi(FormatInt(capacity)) == Ok(capacity);
  }

  /** BatteryConfig.Decode: the period is checked first, then `battery` must
      be a string (possibly empty). */
  function Decode(m: map<string, Json>): (r: Result<BatteryConfig>)
    ensures r.Ok? || r.Err?
    ensures NumberField(m, "period_ms").None? || Trunc(NumberField(m, "period_ms").value) < 1 ==>
              r == Err("invalid period in battery config")
    ensures r.Ok? <==> NumberField(m, "period_ms").Some? && Trunc(NumberField(m, "period_ms").value) >= 1
                       && StringField(m, "battery").Some?
    ensures r.Ok? ==> r.value.period == Trunc(m["period_ms"].n) * Millisecond && r.value.battery == m["battery"].s
    ensures r.Err? && NumberField(m, "period_ms").Some? && Trunc(NumberField(m, "period_ms").value) >= 1 ==>
              r.msg == "invalid battery in battery config"
  {
    match PeriodMs(m)
    case None => Err("invalid period in battery config")
    case Some(ms) =>
      match StringField(m, "battery")
      case None => Err("invalid battery in battery config")
      case Some(b) => Ok(BatteryConfig(b, ms * Millisecond))
  }

  /** The producer's `fn`: a failed read is shown as the literal "error". */
  function Show(id: int, o: Reading<BatteryStatus>): Tagged<string>
  {
    match o
    case Read(b) => Tagged(id, Render(b))
    case Failed(_) => Tagged(id, "error")
  }

  /** The producer: one status at start, one per tick, nothing after `done`;
      every status carries the producer's id. */
  function Emissions(id: int, first: Reading<BatteryStatus>, evs: seq<Event<Reading<BatteryStatus>>>)
    : (r: seq<Tagged<string>>)
    ensures var s := Samples(UntilDone(evs));
              |r| == 1 + |s|
              && (forall k :: 0 <= k < |r| ==> r[k].id == id)
              && (first.Failed? ==> r[0].status == "error")
              && (first.Read? ==> r[0].status == Render(first.value))
              && (forall k :: 0 <= k < |s| && s[k].Failed? ==> r[k + 1].status == "error")
              && (forall k :: 0 <= k < |s| && s[k].Read? ==> r[k + 1].status == Render(s[k].value))
  {
    var s := Samples(UntilDone(evs));
    assert Handled(evs, true) == UntilDone(evs);
    var f := (o: Reading<BatteryStatus>) => Show(id, o);
    var r := Periodic(first, evs, true, f);
    assert forall k :: 0 <= k < |s| ==> r[k + 1] == f(s[k]);
    assert forall k :: 0 <= k < |r| ==> r[k].id == id by {
      forall k | 0 <= k < |r| ensures r[k].id == id {
        if k > 0 { assert r[k] == Show(id, s[k - 1]); }
      }
    }
    r
  }
}

=== FILE: cpu.dfy ===
/** cpu.go: the CPU module's configuration and the reading of the first
    line of /proc/stat into total and idle jiffies. */
module Cpu {
  import opened Outcomes
  import opened Decimal
  import opened Text
  import opened JsonValue

  /** The sampling period, in nanoseconds as a `time.Duration`. */
  datatype CpuConfig = CpuConfig(period: int)

  /** Total jiffies (all columns summed) and idle jiffies. */
  datatype Timings = Timings(total: int, idle: int)

  /** CpuConfig.Decode. */
  function Decode(m: map<string, Json>): (r: Result<CpuConfig>)
    ensures r.Ok? || r.Err?
    ensures r.Ok? <==> NumberField(m, "period_ms").Some? && Trunc(NumberField(m, "period_ms").value) >= 1
    ensures r.Ok? ==> r.value.period == Trunc(m["period_ms"].n) * Millisecond
    ensures r.Err? ==> r.msg == "invalid period in cpu config"
  {
    match PeriodMs(m)
    case Some(ms) => Ok(CpuConfig(ms * Millisecond))
    case None => Err("invalid period in cpu config")
  }

  /** Every field is a base-10 int64 literal. */
  predicate AllParse(fs: seq<string>)
  {
    forall k :: 0 <= k < |fs| ==> ParseInt(fs[k]).Ok?
  }

  /** The sum of the values of fields that all parse. */
  function ValueSum(fs: seq<string>): int
    requires AllParse(fs)
  {
    if |fs| == 0 then 0 else ParseInt(fs[0]).value + ValueSum(fs[1..])
  }

  /** Index of the first field that does not parse. */
  function FirstFailure(fs: seq<string>): (k: nat)
    requires !AllParse(fs)
    ensures k < |fs| && ParseInt(fs[k]).Err? && AllParse(fs[..k])
  {
    if ParseInt(fs[0]).Err? then
      assert fs[..0] == [];
      0
    else
      var k := FirstFailure(fs[1..]);
      AllParseCons(fs, k);
      k + 1
  }

  lemma AllParseCons(fs: seq<string>, k: nat)
    requires k < |fs| - 1 && ParseInt(fs[0]).Ok? && AllParse(fs[1..][..k])
    ensures AllParse(fs[..k + 1])
  {
    var p := fs[..k + 1];
    forall j | 0 <= j < k + 1 ensures ParseInt(p[j]).Ok? {
      if j > 0 {
        assert p[j] == fs[1..][..k][j - 1];
      }
    }
  }

  /** The summing loop: the first field that does not parse ends it with
      that field's error. */
  function SumFields(fs: seq<string>): (r: Result<int>)
    ensures r.Ok? || r.Err?
    ensures r.Ok? <==> AllParse(fs)
    ensures r.Ok? ==> r.value == ValueSum(fs)
    ensures r.Err? ==> r == ParseInt(fs[FirstFailure(fs)])
  {
    if |fs| == 0 then Ok(0)
    else
      var head := ParseInt(fs[0]);
      if head.Err? then head
      else
        var rest := SumFields(fs[1..]);
        if rest.Ok? then Ok(head.value + rest.value) else rest
  }

  /** getCpuTimings over the outcome of opening /proc/stat. Without a first
      line it returns zeros and no error; a first line without fields, or
      one whose fields all parse but number fewer than five, panics. */
  function GetCpuTimings(file: FileRead): (r: Result<Timings>)
    ensures file.ReadError? ==> r == Err(file.msg)
    ensures file == Contents("") ==> r == Ok(Timings(0, 0))
    ensures file.Contents? && |file.data| > 0 ==>
              var fs := Fields(ScanLines(file.data)[0]);
              (r.Ok? <==> |fs| >= 5 && AllParse(fs[1..]))
              && (r.Ok? ==> r.value.total == ValueSum(fs[1..]) && r.value.idle == ParseInt(fs[4]).value)
              && (|fs| >= 1 && !AllParse(fs[1..]) ==> r.Err?)
              && (|fs| == 0 || (|fs| < 5 && AllParse(fs[1..])) ==> r.Panic?)
  {
    match file
    case ReadError(e) => Err(e)
    case Contents(data) =>
      var lines := ScanLines(data);
      if |lines| == 0 then Ok(Timings(0, 0))
      else
        var splits := Fields(lines[0]);
        if |splits| == 0 then Panic("runtime error: slice bounds out of range [1:0]")
        else
          match SumFields(splits[1..])
          case Err(e) => Err(e)
          case Panic(p) => Panic(p)
          case Ok(total) =>
            if |splits| <= 4 then
              Panic("runtime error: index out of range [4] with length " + FormatNat(|splits|))
            else
              assert splits[4] == splits[1..][3];
              match ParseInt(splits[4])
              case Ok(idle) => Ok(Timings(total, idle))
              case Err(e) => Err(e)
              case Panic(p) => Panic(p)
  }

  /** Every field parses to a value of at least zero. */
  predicate NonNegative(fs: seq<string>)
  {
    AllParse(fs) && forall j :: 0 <= j < |fs| ==> ParseInt(fs[j]).value >= 0
  }

  /** The idle column is one of the summed columns, so with no negative column
      it never exceeds the total. */
  lemma {:induction false} IdleWithinTotal(fs: seq<string>, k: nat)
    requires NonNegative(fs) && k < |fs|
    ensures ParseInt(fs[k]).value <= ValueSum(fs)
  {
    NonNegativeTail(fs);
    NonNegativeSum(fs[1..]);
    if k > 0 {
      assert fs[1..][k - 1] == fs[k];
      IdleWithinTotal(fs[1..], k - 1);
    }
  }

  lemma {:induction false} NonNegativeSum(fs: seq<string>)
    requires NonNegative(fs)
    ensures ValueSum(fs) >= 0
  {
    if |fs| > 0 {
      NonNegativeTail(fs);
      NonNegativeSum(fs[1..]);
    }
  }

  lemma NonNegativeTail(fs: seq<string>)
    requires NonNegative(fs) && |fs| > 0
    ensures NonNegative(fs[1..])
  {
    forall j | 0 <= j < |fs| - 1 ensures ParseInt(fs[1..][j]).Ok? && ParseInt(fs[1..][j]).value >= 0 {
      assert fs[1..][j] == fs[j + 1];
    }
  }

  /** Read /proc/stat reports idle <= total whenever no column is negative. */
  lemma TimingsIdleWithinTotal(file: FileRead)
    requires GetCpuTimings(file).Ok? && file.Contents? && |file.data| > 0
    requires NonNegative(Fields(ScanLines(file.data)[0])[1..])
    ensures GetCpuTimings(file).value.idle <= GetCpuTimings(file).value.total
  {
    var fs := Fields(ScanLines(file.data)[0]);
    var cols := fs[1..];
    assert fs[4] == cols[3];
    IdleWithinTotal(cols, 3);
  }

  // ---------------------------------------------------------------------
  // A first line in the kernel's field order: "cpu", then the columns,
  // one blank apart (the kernel itself puts two blanks after "cpu").
  // ---------------------------------------------------------------------

  function Render(cols: seq<nat>): seq<string>
  {
    if |cols| == 0 then [] else [FormatNat(cols[0])] + Render(cols[1..])
  }

  function Sum(cols: seq<nat>): nat
  {
    if |cols| == 0 then 0 else cols[0] + Sum(cols[1..])
  }

  lemma {:induction false} RenderedColumns(cols: seq<nat>)
    requires forall j :: 0 <= j < |cols| ==> cols[j] <= MaxInt64
    ensures |Render(cols)| == |cols|
    ensures forall j :: 0 <= j < |cols| ==> Render(cols)[j] == FormatNat(cols[j])
    ensures AllParse(Render(cols)) && ValueSum(Render(cols)) == Sum(cols)
    ensures forall j :: 0 <= j < |cols| ==> ParseInt(Render(cols)[j]) == Ok(cols[j] as int)
  {
    if |cols| > 0 {
      RenderedColumns(cols[1..]);
      FormatIntRoundTrip(cols[0]);
      assert FormatInt(cols[0]) == FormatNat(cols[0]);
      var r := Render(cols);
      forall j | 0 <= j < |cols| ensures r[j] == FormatNat(cols[j]) && ParseInt(r[j]) == Ok(cols[j] as int) {
        if j > 0 {
          assert r[j] == Render(cols[1..])[j - 1];
          assert cols[j] == cols[1..][j - 1];
        }
      }
    }
  }

  /** A first line of /proc/stat in the kernel's field order, one blank between words. */
  function StatLine(cols: seq<nat>): string
  {
    Join(["cpu"] + Render(cols), " ")
  }

  /** Rendered columns are words: non-empty and free of white space. */
  lemma {:induction false} RenderedWords(cols: seq<nat>)
    ensures Words(Render(cols))
  {
    if |cols| > 0 {
      RenderedWords(cols[1..]);
      DigitsNoSpace(FormatNat(cols[0]));
      var r := Render(cols);
      forall k | 0 <= k < |r| ensures |r[k]| > 0 && NoSpace(r[k]) {
        if k > 0 { assert r[k] == Render(cols[1..])[k - 1]; }
      }
    }
  }

  /** The words of the first line: "cpu" and the rendered columns. */
  lemma StatWords(cols: seq<nat>)
    ensures Words(["cpu"] + Render(cols))
  {
    RenderedWords(cols);
    var ws := ["cpu"] + Render(cols);
    forall k | 0 <= k < |ws| ensures |ws[k]| > 0 && NoSpace(ws[k]) {
      if k > 0 { assert ws[k] == Render(cols)[k - 1]; }
    }
  }

  /** The scanner gives such a first line back, split into its words. */
  lemma StatLineScanned(cols: seq<nat>, rest: seq<string>)
    requires forall j :: 0 <= j < |cols| ==> cols[j] <= MaxInt64
    requires forall k :: 0 <= k < |rest| ==> PlainLine(rest[k])
    ensures |Unlines([StatLine(cols)] + rest)| > 0
    ensures Fields(ScanLines(Unlines([StatLine(cols)] + rest))[0]) == ["cpu"] + Render(cols)
  {
    var ws := ["cpu"] + Render(cols);
    StatWords(cols);
    FieldsOfJoin(ws);
    var line := StatLine(cols);
    FieldsLinePlain(ws);
    var ls := [line] + rest;
    forall k | 0 <= k < |ls| ensures PlainLine(ls[k]) {
      if k > 0 { assert ls[k] == rest[k - 1]; }
    }
    ScanUnlines(ls);
  }

  /** Reading a /proc/stat whose first line is `cpu` followed by at least four
      columns gives the sum of all columns and the fourth column. */
  lemma ReadsKernelStat(cols: seq<nat>, rest: seq<string>)
    requires |cols| >= 4
    requires forall j :: 0 <= j < |cols| ==> cols[j] <= MaxInt64
    requires forall k :: 0 <= k < |rest| ==> PlainLine(rest[k])
    ensures GetCpuTimings(Contents(Unlines([StatLine(cols)] + rest))) == Ok(Timings(Sum(cols), cols[3]))
  {
    StatLineScanned(cols, rest);
    RenderedColumns(cols);
    var ws := ["cpu"] + Render(cols);
    assert ws[1..] == Render(cols);
    assert ws[4] == Render(cols)[3];
  }

  lemma DigitsNoSpace(s: string)
    requires AllDigits(s)
    ensures NoSpace(s)
  {
  }

  /** A single-space join of space-free words is a plain line. */
  lemma FieldsLinePlain(ws: seq<string>)
    requires forall k :: 0 <= k < |ws| ==> |ws[k]| > 0 && NoSpace(ws[k])
    ensures PlainLine(Join(ws, " "))
  {
    JoinedWordsNoBreak(ws);
  }

  lemma {:induction false} JoinedWordsNoBreak(ws: seq<string>)
    requires forall k :: 0 <= k < |ws| ==> NoSpace(ws[k])
    ensures forall i :: 0 <= i < |Join(ws, " ")| ==> Join(ws, " ")[i] != '\n' && Join(ws, " ")[i] != '\r'
  {
    if |ws| > 1 {
      JoinedWordsNoBreak(ws[1..]);
      var s := Join(ws, " ");
      assert s == ws[0] + " " + Join(ws[1..], " ");
      forall i | 0 <= i < |s| ensures s[i] != '\n' && s[i] != '\r' {
        if i < |ws[0]| {
          assert s[i] == ws[0][i];
        } else if i > |ws[0]| {
          assert s[i] == Join(ws[1..], " ")[i - |ws[0]| - 1];
        }
      }
    } else if |ws| == 1 {
      assert Join(ws, " ") == ws[0];
    }
  }
}

=== FILE: date.dfy ===
/** date.go: the date module's configuration and its producer, which sends
    the start time and then every tick's time and never stops. */
module Date {
  import opened Outcomes
  import opened JsonValue
  import opened Producer

  /** A point in time, in nanoseconds; its calendar rendering is not modelled. */
  type Instant = int

  /** The tick period, in nanoseconds as a `time.Duration`. */
  datatype DateConfig = DateConfig(period: int)

  /** DateConfig.Decode. */
  function Decode(m: map<string, Json>): (r: Result<DateConfig>)
    ensures r.Ok? || r.Err?
    ensures r.Ok? <==> NumberField(m, "period_ms").Some? && Trunc(NumberField(m, "period_ms").value) >= 1
    ensures r.Ok? ==> r.value.period == Trunc(m["period_ms"].n) * Millisecond
    ensures r.Err? ==> r.msg == "invalid period in date config"
  {
    match PeriodMs(m)
    case Some(ms) => Ok(DateConfig(ms * Millisecond))
    case None => Err("invalid period in date config")
  }

  /** The statuses the producer sends: the start time, then the time of every
      tick, in order; a `done` signal is never received. */
  function Emissions(start: Instant, evs: seq<Event<Instant>>): (r: seq<Instant>)
    ensures |r| == 1 + |Samples(evs)| && r[0] == start
    ensures forall k :: 0 <= k < |Samples(evs)| ==> r[k + 1] == Samples(evs)[k]
  {
    Periodic(start, evs, false, (t: Instant) => t)
  }

  /** The date producer does not stop: a `done` changes nothing it sends. */
  lemma NeverStops(start: Instant, a: seq<Event<Instant>>, b: seq<Event<Instant>>)
    ensures Emissions(start, a + [Done] + b) == Emissions(start, a + b)
  {
    SamplesSkipDone(a, b);
    var r1, r2 := Emissions(start, a + [Done] + b), Emissions(start, a + b);
    var s := Samples(a + b);
    assert |r1| == |r2|;
    forall k | 0 <= k < |r1| ensures r1[k] == r2[k] {
      if k > 0 { assert r1[k] == s[k - 1] == r2[k]; }
    }
  }
}

=== FILE: decimal.dfy ===
/** Decimal numbers as text: `strconv.ParseInt`/`strconv.Atoi` in base 10,
    the leftmost match of the regular expression `[0-9]+`, and the rendering
    of integers that `fmt` performs for `%d`. */
module Decimal {
  import opened Outcomes

  const MaxInt64: int := 0x7FFF_FFFF_FFFF_FFFF
  const MaxUint64: int := 0xFFFF_FFFF_FFFF_FFFF

  predicate IsDigit(c: char) { '0' <= c <= '9' }

  predicate AllDigits(s: string) { forall i :: 0 <= i < |s| ==> IsDigit(s[i]) }

  predicate HasDigit(s: string) { exists i :: 0 <= i < |s| && IsDigit(s[i]) }

  function DigitValue(c: char): (d: nat)
    requires IsDigit(c)
    ensures d < 10
  {
    (c as int) - ('0' as int)
  }

  function DigitChar(d: nat): (c: char)
    requires d < 10
    ensures IsDigit(c) && DigitValue(c) == d
  {
    ((('0' as int) + d) as char)
  }

  /** The value of a run of ASCII digits, most significant digit first. */
  function DigitsValue(s: string): nat
    requires AllDigits(s)
  {
    if |s| == 0 then 0 else DigitsValue(s[..|s| - 1]) * 10 + DigitValue(s[|s| - 1])
  }

  /** Leading zeros do not change the value of a digit run. */
  lemma {:induction false} LeadingZeros(z: string, s: string)
    requires forall i :: 0 <= i < |z| ==> z[i] == '0'
    requires AllDigits(s)
    ensures AllDigits(z + s) && DigitsValue(z + s) == DigitsValue(s)
  {
    if |s| == 0 {
      assert z + s == z;
      ZerosValue(z);
    } else {
      var t := s[..|s| - 1];
      assert (z + s)[..|z + s| - 1] == z + t;
      LeadingZeros(z, t);
    }
  }

  lemma {:induction false} ZerosValue(z: string)
    requires forall i :: 0 <= i < |z| ==> z[i] == '0'
    ensures AllDigits(z) && DigitsValue(z) == 0
  {
    if |z| > 0 {
      ZerosValue(z[..|z| - 1]);
    }
  }

  // ---------------------------------------------------------------------
  // strconv.ParseInt(s, 10, 64) and strconv.Atoi
  // ---------------------------------------------------------------------

  datatype NumErrorKind = InvalidSyntax | OutOfRange

  /** The text of a `*strconv.NumError`. The input is shown between double
      quotes; Go's escaping of unprintable characters is not modelled. */
  function NumErrorText(fn: string, input: string, kind: NumErrorKind): string
  {
    "strconv." + fn + ": parsing \"" + input + "\": "
    + (if kind == InvalidSyntax then "invalid syntax" else "value out of range")
  }

  /** The number of leading ASCII digits of `s`. */
  function DigitPrefixLen(s: string): (n: nat)
    ensures n <= |s|
    ensures AllDigits(s[..n])
    ensures n < |s| ==> !IsDigit(s[n])
  {
    if |s| > 0 && IsDigit(s[0]) then 1 + DigitPrefixLen(s[1..]) else 0
  }

  /** `s` with a leading '+' or '-' removed. */
  function Unsigned(s: string): string
  {
    if |s| > 0 && (s[0] == '+' || s[0] == '-') then s[1..] else s
  }

  /** A base-10 literal as ParseInt reads it: an optional sign, then one or more digits. */
  predicate IsLiteral(s: string)
  {
    |Unsigned(s)| > 0 && AllDigits(Unsigned(s))
  }

  function LiteralValue(s: string): int
    requires IsLiteral(s)
  {
    var v: int := DigitsValue(Unsigned(s));
    if s[0] == '-' then -v else v
  }

  /** strconv.ParseInt(s, 10, 64); `fn` names the Go function in the error
      ("ParseInt", or "Atoi", which behaves the same on 64-bit targets). The
      scan stops with a range error as soon as the digits read so far exceed
      the unsigned 64-bit range, and with a syntax error at the first non-digit. */
  function ParseIntAs(fn: string, s: string): (r: Result<int>)
    ensures r.Ok? || r.Err?
    ensures r.Ok? <==> IsLiteral(s) && -MaxInt64 - 1 <= LiteralValue(s) <= MaxInt64
    ensures r.Ok? ==> r.value == LiteralValue(s)
  {
    var u := Unsigned(s);
    var p := u[..DigitPrefixLen(u)];
    if |s| == 0 || |u| == 0 then Err(NumErrorText(fn, s, InvalidSyntax))
    else if DigitsValue(p) > MaxUint64 then
      assert AllDigits(u) ==> p == u;
      Err(NumErrorText(fn, s, OutOfRange))
    else if |p| < |u| then Err(NumErrorText(fn, s, InvalidSyntax))
    else
      assert p == u;
      var v: int := DigitsValue(u);
      if s[0] == '-' then
        if v > MaxInt64 + 1 then Err(NumErrorText(fn, s, OutOfRange)) else Ok(-v)
      else
        if v > MaxInt64 then Err(NumErrorText(fn, s, OutOfRange)) else Ok(v)
  }

  function ParseInt(s: string): Result<int> { ParseIntAs("ParseInt", s) }

  function Atoi(s: string): Result<int> { ParseIntAs("Atoi", s) }

  // ---------------------------------------------------------------------
  // Rendering (`%d`)
  // ---------------------------------------------------------------------

  /** The shortest decimal rendering of a natural number. */
  function FormatNat(n: nat): (s: string)
    ensures |s| > 0 && AllDigits(s)
  {
    if n < 10 then [DigitChar(n)] else FormatNat(n / 10) + [DigitChar(n % 10)]
  }

  /** `%d` of an integer: a '-' for negative values, then the digits. */
  function FormatInt(n: int): string
  {
    if n < 0 then "-" + FormatNat(-n) else FormatNat(n)
  }

  /** Rendering then reading a natural number gives it back. */
  lemma {:induction false} FormatNatValue(n: nat)
    ensures DigitsValue(FormatNat(n)) == n
  {
    if n >= 10 {
      var s := FormatNat(n);
      assert s[..|s| - 1] == FormatNat(n / 10);
      FormatNatValue(n / 10);
    }
  }

  /** A rendered natural number has at most `w` digits exactly when it is below 10^w. */
  lemma {:induction false} FormatNatLength(n: nat, w: nat)
    requires w >= 1
    ensures |FormatNat(n)| <= w <==> n < Pow10(w)
  {
    if n >= 10 {
      if w > 1 {
        FormatNatLength(n / 10, w - 1);
      } else {
        assert Pow10(1) == 10;
      }
    } else {
      Pow10Positive(w - 1);
    }
  }

  function Pow10(w: nat): (p: nat)
  {
    if w == 0 then 1 else 10 * Pow10(w - 1)
  }

  lemma {:induction false} Pow10Positive(w: nat)
    ensures Pow10(w) >= 1
  {
    if w > 0 { Pow10Positive(w - 1); }
  }

  /** ParseInt reads back every rendered int64 value. */
  lemma FormatIntRoundTrip(n: int)
    requires -MaxInt64 - 1 <= n <= MaxInt64
    ensures ParseInt(FormatInt(n)) == Ok(n)
  {
    var s := FormatInt(n);
    var m: nat := if n < 0 then -n else n;
    FormatNatValue(m);
    assert Unsigned(s) == FormatNat(m);
    assert IsLiteral(s);
    assert LiteralValue(s) == n;
  }

  // ---------------------------------------------------------------------
  // regexp `[0-9]+`, FindString
  // ---------------------------------------------------------------------

  /** Index of the first ASCII digit of `s`, or |s| when there is none. */
  function FirstDigitIndex(s: string): (i: nat)
    ensures i <= |s|
    ensures i < |s| ==> IsDigit(s[i])
    ensures forall j :: 0 <= j < i ==> !IsDigit(s[j])
  {
    if |s| == 0 || IsDigit(s[0]) then 0 else 1 + FirstDigitIndex(s[1..])
  }

  /** The leftmost-longest match of `[0-9]+` in `s`, or "" when `s` has no digit. */
  function FirstDigitRun(s: string): (r: string)
    ensures AllDigits(r)
    ensures r == "" <==> !HasDigit(s)
    ensures r != "" ==>
              var i := FirstDigitIndex(s);
              i + |r| <= |s| && s[i..i + |r|] == r && (i + |r| == |s| || !IsDigit(s[i + |r|]))
  {
    var i := FirstDigitIndex(s);
    var rest := s[i..];
    var r := rest[..DigitPrefixLen(rest)];
    assert i < |s| ==> rest[0] == s[i];
    assert r != "" ==> s[i..i + |r|] == r;
    r
  }
}

=== FILE: json.dfy ===
/** Decoded JSON values as `encoding/json` hands them to the configuration
    code (numbers are float64 there, `real` here), Go's float-to-int
    conversions, and the `period_ms` rule shared by the module decoders. */
module JsonValue {
  import opened Outcomes

  datatype Json =
    | Null
    | Bool(b: bool)
    | Number(n: real)
    | Str(s: string)
    | Array(items: seq<Json>)
    | Object(fields: map<string, Json>)

  /** The word `encoding/json` uses for a value's kind in a type error. */
  function KindName(j: Json): string
  {
    match j
    case Null => "null"
    case Bool(_) => "bool"
    case Number(_) => "number"
    case Str(_) => "string"
    case Array(_) => "array"
    case Object(_) => "object"
  }

  /** `json.Unmarshal` into a `map[string]interface{}`: an object gives its
      members, `null` leaves the map nil (empty) without error, any other
      value is a type error. */
  function AsMap(j: Json): (r: Result<map<string, Json>>)
    ensures r.Ok? || r.Err?
    ensures r.Ok? <==> j.Object? || j.Null?
    ensures j.Object? ==> r == Ok(j.fields)
    ensures j.Null? ==> r == Ok(map[])
  {
    match j
    case Object(fields) => Ok(fields)
    case Null => Ok(map[])
    case _ => Err("json: cannot unmarshal " + KindName(j) + " into Go value of type map[string]interface {}")
  }

  /** `m[k].(float64)`: present only when the key holds a number. */
  function NumberField(m: map<string, Json>, k: string): Option<real>
  {
    if k in m && m[k].Number? then Some(m[k].n) else None
  }

  /** `m[k].(string)`: present only when the key holds a string. */
  function StringField(m: map<string, Json>, k: string): Option<string>
  {
    if k in m && m[k].Str? then Some(m[k].s) else None
  }

  /** Go's `int(x)` for a float64 in range: rounds toward zero. */
  function Trunc(x: real): (n: int)
    ensures x >= 0.0 ==> n >= 0 && n as real <= x < n as real + 1.0
    ensures x < 0.0 ==> n <= 0 && n as real - 1.0 < x <= n as real
  {
    if x >= 0.0 then x.Floor else -((-x).Floor)
  }

  /** Go's `int(math.Ceil(x))`: the least integer not below x. */
  function Ceil(x: real): (n: int)
    ensures n as real - 1.0 < x <= n as real
  {
    -((-x).Floor)
  }

  /** `time.Millisecond`, counted in nanoseconds as `time.Duration` does. */
  const Millisecond: int := 1_000_000

  /** The `period_ms` rule of every decoder but netspeed's: the key must hold
      a number whose truncation toward zero is at least 1. That is the case
      exactly for numbers >= 1, and the period is their integer part. */
  function PeriodMs(m: map<string, Json>): (r: Option<nat>)
    ensures r.Some? <==> NumberField(m, "period_ms").Some? && NumberField(m, "period_ms").value >= 1.0
    ensures r.Some? ==> r.value >= 1
    ensures r.Some? ==> r.value as real <= m["period_ms"].n < r.value as real + 1.0
  {
    match NumberField(m, "period_ms")
    case Some(x) => if Trunc(x) >= 1 then Some(Trunc(x)) else None
    case None => None
  }
}

=== FILE: mem.dfy ===
/** mem.go: the memory module of the revision whose modules implement
    `FromMap`, with a tick-only producer that skips failed reads. */
module Mem {
  import opened Outcomes
  import opened Decimal
  import opened Text
  import opened JsonValue
  import opened Producer
  import opened ProcMeminfo

  /** Total and available memory in bytes. */
  type MemStatus = Memory

  /** The sampling period, in nanoseconds as a `time.Duration`. */
  datatype MemConfig = MemConfig(period: int)

  /** MemConfig.FromMap. The error text says "time config", as in mem.go. */
  function FromMap(m: map<string, Json>): (r: Result<MemConfig>)
    ensures r.Ok? || r.Err?
    ensures r.Ok? <==> NumberField(m, "period_ms").Some? && Trunc(NumberField(m, "period_ms").value) >= 1
    ensures r.Ok? ==> r.value.period == Trunc(m["period_ms"].n) * Millisecond
    ensures r.Err? ==> r.msg == "invalid period in time config"
  {
    match PeriodMs(m)
    case Some(ms) => Ok(MemConfig(ms * Millisecond))
    case None => Err("invalid period in time config")
  }

  /** readMemInfo over the outcome of opening /proc/meminfo. */
  function ReadMemInfo(file: FileRead): (r: Result<MemStatus>)
    ensures r.Ok? || r.Err?
    ensures file.ReadError? ==> r == Err("error reading /proc/meminfo: " + file.msg)
    ensures file.Contents? && r.Err? ==> r.msg == ParseFailed
    ensures r.Ok? ==> InBytes(r.value)
    ensures file == Contents("") ==> r == Ok(Zero)
  {
    match file
    case ReadError(msg) => Err("error reading /proc/meminfo: " + msg)
    case Contents(data) => Scan(Zero, ScanLines(data))
  }

  /** A /proc/meminfo whose head lines follow the kernel's field order reads as MemTotal and MemAvailable times 1000. */
  lemma ReadsKernelFile(totalKb: nat, freeKb: nat, availKb: nat, rest: seq<string>)
    requires 1 <= totalKb <= MaxInt64 && 1 <= availKb <= MaxInt64 && freeKb <= MaxInt64
    requires forall k :: 0 <= k < |rest| ==> PlainLine(rest[k])
    ensures ReadMemInfo(Contents(Unlines(KernelLines(totalKb, freeKb, availKb, rest))))
         == Ok(Memory(1000 * totalKb, 1000 * availKb))
  {
    ProcMeminfo.ReadsKernelFile(totalKb, freeKb, availKb, rest);
  }

  /** The producer (`for range tick.C`): no status at start, one per tick
      whose read succeeds, nothing for a failed read, and no way to stop. */
  function Emissions(evs: seq<Event<Reading<MemStatus>>>): (r: seq<MemStatus>)
    ensures r == Successes(Samples(evs))
    ensures |r| <= |Samples(evs)|
  {
    SkipOnError(evs, false)
  }

  /** The producer has no way to stop: a `done` changes nothing it sends. */
  lemma NeverStops(a: seq<Event<Reading<MemStatus>>>, b: seq<Event<Reading<MemStatus>>>)
    ensures Emissions(a + [Done] + b) == Emissions(a + b)
  {
    SamplesSkipDone(a, b);
  }
}

=== FILE: meminfo.dfy ===
/** meminfo.go: the memory module of the revision whose modules implement
    `Decode`; its producer waits for the first tick and skips failed reads. */
module MemInfo {
  import opened Outcomes
  import opened Decimal
  import opened Text
  import opened JsonValue
  import opened Producer
  import opened ProcMeminfo

  /** Total and available memory in bytes. */
  type MemStatus = Memory

  /** The sampling period, in nanoseconds as a `time.Duration`. */
  datatype MemConfig = MemConfig(period: int)

  /** MemConfig.Decode. The error text says "time config", as in meminfo.go. */
  function Decode(m: map<string, Json>): (r: Result<MemConfig>)
    ensures r.Ok? || r.Err?
    ensures r.Ok? <==> NumberField(m, "period_ms").Some? && Trunc(NumberField(m, "period_ms").value) >= 1
    ensures r.Ok? ==> r.value.period == Trunc(m["period_ms"].n) * Millisecond
    ensures r.Err? ==> r.msg == "invalid period in time config"
  {
    match PeriodMs(m)
    case Some(ms) => Ok(MemConfig(ms * Millisecond))
    case None => Err("invalid period in time config")
  }

  /** ReadMemInfo over the outcome of opening /proc/meminfo. */
  function ReadMemInfo(file: FileRead): (r: Result<MemStatus>)
    ensures r.Ok? || r.Err?
    ensures file.ReadError? ==> r == Err("error reading /proc/meminfo: " + file.msg)
    ensures file.Contents? && r.Err? ==> r.msg == ParseFailed
    ensures r.Ok? ==> InBytes(r.value)
    ensures file == Contents("") ==> r == Ok(Zero)
  {
    match file
    case ReadError(msg) => Err("error reading /proc/meminfo: " + msg)
    case Contents(data) => Scan(Zero, ScanLines(data))
  }

  /** A /proc/meminfo whose head lines follow the kernel's field order reads as MemTotal and MemAvailable times 1000. */
  lemma ReadsKernelFile(totalKb: nat, freeKb: nat, availKb: nat, rest: seq<string>)
    requires 1 <= totalKb <= MaxInt64 && 1 <= availKb <= MaxInt64 && freeKb <= MaxInt64
    requires forall k :: 0 <= k < |rest| ==> PlainLine(rest[k])
    ensures ReadMemInfo(Contents(Unlines(KernelLines(totalKb, freeKb, availKb, rest))))
         == Ok(Memory(1000 * totalKb, 1000 * availKb))
  {
    ProcMeminfo.ReadsKernelFile(totalKb, freeKb, availKb, rest);
  }

  /** The producer: a `select` on the ticker alone (its `done` case is
      commented out). A failed read is logged and emits nothing; a successful
      one emits the status. There is no initial emission. */
  function Emissions(evs: seq<Event<Reading<MemStatus>>>): (r: seq<MemStatus>)
    ensures r == Successes(Samples(evs))
    ensures |r| <= |Samples(evs)|
  {
    SkipOnError(evs, false)
  }

  /** The producer has no way to stop: a `done` changes nothing it sends. */
  lemma NeverStops(a: seq<Event<Reading<MemStatus>>>, b: seq<Event<Reading<MemStatus>>>)
    ensures Emissions(a + [Done] + b) == Emissions(a + b)
  {
    SamplesSkipDone(a, b);
  }
}

=== FILE: netspeed.dfy ===
/** netspeed.go: reading a network device's byte counters, the rendering of
    transfer rates with unit scaling, the JSON configuration, and the
    producer's rollover of the previous sample. */
module Netspeed {
  import opened Outcomes
  import opened Decimal
  import opened Text
  import opened JsonValue
  import opened Producer

  // ---------------------------------------------------------------------
  // readRxTxBytes
  // ---------------------------------------------------------------------

  /** Received and transmitted byte counters of a device. */
  datatype Counters = Counters(rx: int, tx: int)

  /** The sysfs statistics file of a counter (`rx_bytes` or `tx_bytes`). */
  function StatisticsPath(device: string, counter: string): string
  {
    "/sys/class/net/" + device + "/statistics/" + counter
  }

  /** One counter file: its content minus the trailing newline byte, read
      as a base-10 int64. */
  function ReadCounter(file: FileRead): (r: Result<int>)
    ensures file.ReadError? ==> r == Err(file.msg)
    ensures file == Contents("") ==> r.Panic?
    ensures file.Contents? && |file.data| > 0 ==>
              r == ParseInt(file.data[..|file.data| - 1])
  {
    match file
    case ReadError(e) => Err(e)
    case Contents(data) =>
      match DropLast(data)
      case Ok(text) => ParseInt(text)
      case Err(e) => Err(e)
      case Panic(p) => Panic(p)
  }

  /** readRxTxBytes over the outcomes of reading the two counter files: the
      rx file is read and parsed first, and its failure leaves the tx file
      unread. */
  function ReadRxTxBytes(rxFile: FileRead, txFile: FileRead): (r: Result<Counters>)
    ensures ReadCounter(rxFile).Err? ==> r == Err(ReadCounter(rxFile).msg)
    ensures ReadCounter(rxFile).Panic? ==> r.Panic?
    ensures ReadCounter(rxFile).Ok? ==>
              (ReadCounter(txFile).Err? ==> r == Err(ReadCounter(txFile).msg))
              && (ReadCounter(txFile).Panic? ==> r.Panic?)
              && (ReadCounter(txFile).Ok? ==>
                    r == Ok(Counters(ReadCounter(rxFile).value, ReadCounter(txFile).value)))
  {
    match ReadCounter(rxFile)
    case Err(e) => Err(e)
    case Panic(p) => Panic(p)
    case Ok(rx) =>
      match ReadCounter(txFile)
      case Err(e) => Err(e)
      case Panic(p) => Panic(p)
      case Ok(tx) => Ok(Counters(rx, tx))
  }

  /** Counter files as the kernel writes them, one decimal number and a
      newline each, read back as the counters. */
  lemma ReadsKernelCounters(rx: int, tx: int)
    requires -MaxInt64 - 1 <= rx <= MaxInt64 && -MaxInt64 - 1 <= tx <= MaxInt64
    ensures ReadRxTxBytes(Contents(FormatInt(rx) + "\n"), Contents(FormatInt(tx) + "\n")) == Ok(Counters(rx, tx))
  {
    var a, b := FormatInt(rx) + "\n", FormatInt(tx) + "\n";
    assert a[..|a| - 1] == FormatInt(rx);
    assert b[..|b| - 1] == FormatInt(tx);
    FormatIntRoundTrip(rx);
    FormatIntRoundTrip(tx);
  }

  // ---------------------------------------------------------------------
  // NetspeedConfig.UnmarshalJSON
  // ---------------------------------------------------------------------

  datatype NetspeedConfig = NetspeedConfig(device: string, periodMs: int)

  /** The condition under which UnmarshalJSON accepts a decoded document. */
  predicate Acceptable(j: Json)
  {
    (j.Object? || j.Null?)
    && StringField(AsMap(j).value, "device").Some? && |AsMap(j).value["device"].s| > 0
    && NumberField(AsMap(j).value, "period_ms").Some? && AsMap(j).value["period_ms"].n > 0.0
  }

  /** UnmarshalJSON on receiver `c`: the updated receiver and the error. On
      error the receiver is left as it was; on success `device` is taken
      as is and `period_ms` is rounded up. */
  function UnmarshalJSON(c: NetspeedConfig, j: Json): (r: (NetspeedConfig, Option<string>))
    ensures r.1.None? <==> Acceptable(j)
    ensures r.1.Some? ==> r.0 == c
    ensures r.1.None? ==> r.0.device == j.fields["device"].s
                          && r.0.periodMs >= 1
                          && r.0.periodMs as real - 1.0 < j.fields["period_ms"].n <= r.0.periodMs as real
    ensures AsMap(j).Err? ==> r.1 == Some(AsMap(j).msg)
    ensures AsMap(j).Ok? && r.1.Some? && StringField(AsMap(j).value, "device").Some?
            && |AsMap(j).value["device"].s| > 0 ==>
              r.1 == Some("expected 'period_ms' to be a number greater than 0")
    ensures AsMap(j).Ok? && (StringField(AsMap(j).value, "device").None? || |AsMap(j).value["device"].s| == 0) ==>
              r.1 == Some("expected 'device' to be non-empty string")
  {
    match AsMap(j)
    case Err(e) => (c, Some(e))
    case Panic(e) => (c, Some(e))
    case Ok(raw) =>
      match StringField(raw, "device")
      case None => (c, Some("expected 'device' to be non-empty string"))
      case Some(device) =>
        if |device| == 0 then (c, Some("expected 'device' to be non-empty string"))
        else
          match NumberField(raw, "period_ms")
          case None => (c, Some("expected 'period_ms' to be a number greater than 0"))
          case Some(x) =>
            if x <= 0.0 then (c, Some("expected 'period_ms' to be a number greater than 0"))
            else (NetspeedConfig(device, Ceil(x)), None)
  }

  /** The documents of the unmarshalling test table and their verdicts. */
  lemma UnmarshalTable(c: NetspeedConfig)
    ensures UnmarshalJSON(c, Object(map["device" := Str("wlan0"), "period_ms" := Number(1000.0)])).1.None?
    ensures UnmarshalJSON(c, Object(map["device" := Str("wlan0"), "period_ms" := Number(1.0)])).1.None?
    ensures UnmarshalJSON(c, Object(map["device" := Str(""), "period_ms" := Number(1000.0)])).1.Some?
    ensures UnmarshalJSON(c, Object(map["device" := Str("wlan0"), "period_ms" := Number(0.0)])).1.Some?
    ensures UnmarshalJSON(c, Object(map["period_ms" := Number(0.0)])).1.Some?
    ensures UnmarshalJSON(c, Object(map["device" := Str("wlan0")])).1.Some?
    ensures UnmarshalJSON(c, Object(map["device" := Str("wlan0"), "period_ms" := Number(-1.0)])).1.Some?
  {
  }

  // ---------------------------------------------------------------------
  // format
  // ---------------------------------------------------------------------

  /** The factor a unit letter stands for. */
  function Multiplier(unit: string): real
  {
    if unit == "K" then 1000.0 else if unit == "M" then 1000000.0 else 1.0
  }

  /** The unit switch applied to one rate in bytes per second: the scaled
      value and its unit letter (" " for plain bytes). */
  function Scale(bps: real): (r: (real, string))
    ensures r.1 == " " <==> bps < 10000.0
    ensures r.1 == "K" <==> 10000.0 <= bps < 10000000.0
    ensures r.1 == "M" <==> bps >= 10000000.0
    ensures r.0 * Multiplier(r.1) == bps
  {
    if 10000.0 <= bps < 10000000.0 then (bps / 1000.0, "K")
    else if bps >= 10000000.0 then (bps / 1000000.0, "M")
    else (bps, " ")
  }

  /** The integer shown for a rate: its scaled value truncated toward zero. */
  function Shown(bps: real): int
  {
    Trunc(Scale(bps).0)
  }

  /** Any rate from zero up to 10 GB/s shows as at most four digits; a
      scaled rate shows as at least two. */
  lemma ShownBounds(bps: real)
    requires 0.0 <= bps < 10000000000.0
    ensures 0 <= Shown(bps) < 10000
    ensures Scale(bps).1 != " " ==> Shown(bps) >= 10
  {
  }

  /** A rate below 10000 B/s is shown as the truncated rate itself. */
  lemma ShownUnscaled(bps: real)
    requires bps < 10000.0
    ensures Shown(bps) == Trunc(bps) && Scale(bps).1 == " "
  {
  }

  /** `s` preceded by zeros up to width `w`. */
  function ZeroPad(s: string, w: nat): (r: string)
    ensures |r| == if |s| >= w then |s| else w
    ensures r[|r| - |s|..] == s
    ensures forall i :: 0 <= i < |r| - |s| ==> r[i] == '0'
  {
    if |s| >= w then s else seq(w - |s|, _ => '0') + s
  }

  /** Zero padding keeps a digit run's value. */
  lemma PaddedValue(s: string, w: nat)
    requires AllDigits(s)
    ensures AllDigits(ZeroPad(s, w)) && DigitsValue(ZeroPad(s, w)) == DigitsValue(s)
  {
    var p := ZeroPad(s, w);
    var z := p[..|p| - |s|];
    assert p == z + s;
    LeadingZeros(z, s);
  }

  /** `%04d`: at least four characters, zero-padded after the sign. */
  function Pad04(n: int): (r: string)
    ensures n >= 0 ==> AllDigits(r) && DigitsValue(r) == n
    ensures n < 0 ==> |r| > 1 && r[0] == '-' && AllDigits(r[1..]) && DigitsValue(r[1..]) == -n
    ensures |r| >= 4
    ensures 0 <= n < 10000 ==> |r| == 4
  {
    var m: nat := if n < 0 then -n else n;
    var digits := FormatNat(m);
    FormatNatValue(m);
    FormatNatLength(m, 4);
    assert Pow10(4) == 10000 by {
      assert Pow10(1) == 10;
      assert Pow10(2) == 100;
    }
    var padded := ZeroPad(digits, if n < 0 then 3 else 4);
    PaddedValue(digits, if n < 0 then 3 else 4);
    if n < 0 then
      var r := "-" + padded;
      assert r[1..] == padded;
      r
    else padded
  }

  const Antenna := "\U{1F5A7} "
  const UpArrow := "\U{2B06}\U{FE0F} "
  const DownArrow := "\U{2B07}\U{FE0F} "

  /** One direction's rate as shown: number, unit letter, "B/s". */
  function RatePart(bps: real): string
  {
    Pad04(Shown(bps)) + " " + Scale(bps).1 + "B/s"
  }

  /** format: the device, then the transmit rate, then the receive rate. */
  function Format(device: string, rxBPS: real, txBPS: real): string
  {
    Antenna + device + ": " + UpArrow + RatePart(txBPS) + " " + DownArrow + RatePart(rxBPS)
  }

  /** One direction's rate part is nine characters wide for rates from
      zero up to 10 GB/s: four digits, a blank, the unit letter, "B/s". */
  lemma RatePartLayout(bps: real)
    requires 0.0 <= bps < 10000000000.0
    ensures |RatePart(bps)| == 9
    ensures RatePart(bps)[..4] == Pad04(Shown(bps))
    ensures RatePart(bps)[5] == Scale(bps).1[0]
  {
    ShownBounds(bps);
    var p := RatePart(bps);
    assert |Scale(bps).1| == 1;
    assert p[..4] == Pad04(Shown(bps));
  }

  /** The status line has a fixed width for every pair of rates up to 10 GB/s,
      shows the transmit rate before the receive rate, and each direction's
      number and unit come from that direction's rate alone. */
  lemma FormatLayout(device: string, rxBPS: real, txBPS: real)
    requires 0.0 <= rxBPS < 10000000000.0 && 0.0 <= txBPS < 10000000000.0
    ensures var s, n := Format(device, rxBPS, txBPS), |device|;
            |s| == n + 29
            && s[n + 7..n + 11] == Pad04(Shown(txBPS)) && s[n + 12] == Scale(txBPS).1[0]
            && s[n + 20..n + 24] == Pad04(Shown(rxBPS)) && s[n + 25] == Scale(rxBPS).1[0]
  {
    RatePartLayout(txBPS);
    RatePartLayout(rxBPS);
    var n := |device|;
    var head := Antenna + device + ": " + UpArrow;
    var t, r := RatePart(txBPS), RatePart(rxBPS);
    var mid := head + t + " " + DownArrow;
    var s := Format(device, rxBPS, txBPS);
    assert |head| == n + 7;
    assert |mid| == n + 20;
    assert s == mid + r;
    assert s[..n + 16] == head + t;
    assert s[n + 7..n + 11] == (head + t)[n + 7..n + 11] == t[..4];
    assert s[n + 12] == t[5];
    assert s[n + 20..n + 24] == r[..4];
    assert s[n + 25] == r[5];
  }

  // ---------------------------------------------------------------------
  // The producer loop
  // ---------------------------------------------------------------------

  /** A reading of the counters and the time it was taken, in nanoseconds. */
  datatype Observation = Observation(reading: Reading<Counters>, at: int)

  /** What the producer sends: an error's text, the initial zero rates, or
      the byte differences since the previous sample and the time between
      them, which `Show` renders as rates. */
  datatype NetStatus =
    | ErrorText(text: string)
    | Start
    | Speed(rxBytes: int, txBytes: int, elapsed: int)

  /** `float64(bytes) / durSec`, with the duration given in nanoseconds. */
  function Rate(bytes: int, elapsed: int): real
    requires elapsed > 0
  {
    bytes as real / (elapsed as real / 1000000000.0)
  }

  /** The status line a status stands for. */
  function Show(device: string, s: NetStatus): string
    requires s.Speed? ==> s.elapsed > 0
  {
    match s
    case ErrorText(t) => t
    case Start => Format(device, 0.0, 0.0)
    case Speed(rx, tx, el) => Format(device, Rate(rx, el), Rate(tx, el))
  }

  /** The counters a reading leaves behind: the values read, or (0, 0) when
      it failed. */
  function Taken(r: Reading<Counters>): Counters
  {
    match r
    case Read(c) => c
    case Failed(_) => Counters(0, 0)
  }

  /** A failed reading sends its error's text first. */
  function ErrorPart(id: int, r: Reading<Counters>): seq<Tagged<NetStatus>>
  {
    if r.Failed? then [Tagged(id, ErrorText(r.err))] else []
  }

  /** The ticks after the first: each sends the error text of a failed
      reading, then the differences from the previous sample, which it
      then replaces. */
  function Rounds(id: int, prev: Counters, since: int, obs: seq<Observation>): seq<Tagged<NetStatus>>
    decreases |obs|
  {
    if |obs| == 0 then []
    else
      var c := Taken(obs[0].reading);
      ErrorPart(id, obs[0].reading)
      + [Tagged(id, Speed(c.rx - prev.rx, c.tx - prev.tx, obs[0].at - since))]
      + Rounds(id, c, obs[0].at, obs[1..])
  }

  /** The producer: the error of the first reading, if any, then zero rates,
      then one round per tick before the first `done`. */
  function Emissions(id: int, first: Observation, evs: seq<Event<Observation>>): (r: seq<Tagged<NetStatus>>)
    ensures var obs := Samples(UntilDone(evs));
            Speeds(r) == Differences(Taken(first.reading), first.at, obs)
            && Errors(r) == FailureTexts([first] + obs)
            && |r| == 1 + |obs| + |FailureTexts([first] + obs)|
            && AllIds(r, id)
  {
    var obs := Samples(UntilDone(evs));
    StartThenRounds(id, first, obs);
    ErrorPart(id, first.reading) + [Tagged(id, Start)] + Rounds(id, Taken(first.reading), first.at, obs)
  }

  /** The first reading's status followed by the rounds of the later ones. */
  lemma StartThenRounds(id: int, first: Observation, obs: seq<Observation>)
    ensures var r := ErrorPart(id, first.reading) + [Tagged(id, Start)] + Rounds(id, Taken(first.reading), first.at, obs);
            Speeds(r) == Differences(Taken(first.reading), first.at, obs)
            && Errors(r) == FailureTexts([first] + obs)
            && |r| == 1 + |obs| + |FailureTexts([first] + obs)|
            && AllIds(r, id)
  {
    var e, s := ErrorPart(id, first.reading), [Tagged(id, Start)];
    var rest := Rounds(id, Taken(first.reading), first.at, obs);
    RoundsProjections(id, Taken(first.reading), first.at, obs);
    RoundsTagged(id, Taken(first.reading), first.at, obs);
    StartSpeeds(e, s, rest);
    StartErrors(e, s, rest);
    AllIdsAppend(e, s, id);
    AllIdsAppend(e + s, rest, id);
    FailureTextsCons(first, obs);
  }

  lemma StartSpeeds(e: seq<Tagged<NetStatus>>, s: seq<Tagged<NetStatus>>, rest: seq<Tagged<NetStatus>>)
    requires Speeds(e) == [] && Speeds(s) == []
    ensures Speeds(e + s + rest) == Speeds(rest)
  {
    SpeedsAppend(e + s, rest);
    SpeedsAppend(e, s);
  }

  lemma StartErrors(e: seq<Tagged<NetStatus>>, s: seq<Tagged<NetStatus>>, rest: seq<Tagged<NetStatus>>)
    requires Errors(s) == []
    ensures Errors(e + s + rest) == Errors(e) + Errors(rest)
  {
    ErrorsAppend(e + s, rest);
    ErrorsAppend(e, s);
  }

  lemma FailureTextsCons(first: Observation, obs: seq<Observation>)
    ensures FailureTexts([first] + obs)
         == (if first.reading.Failed? then [first.reading.err] else []) + FailureTexts(obs)
  {
    assert ([first] + obs)[1..] == obs;
  }

  /** Every status of the sequence carries the producer's id. */
  predicate AllIds(ts: seq<Tagged<NetStatus>>, id: int)
  {
    forall k :: 0 <= k < |ts| ==> ts[k].id == id
  }

  lemma AllIdsAppend(a: seq<Tagged<NetStatus>>, b: seq<Tagged<NetStatus>>, id: int)
    requires AllIds(a, id) && AllIds(b, id)
    ensures AllIds(a + b, id)
  {
    forall k | 0 <= k < |a + b| ensures (a + b)[k].id == id {
      if k >= |a| { assert (a + b)[k] == b[k - |a|]; }
    }
  }

  // Reference definitions over the observed samples.

  /** The sample before the k-th observation: the counters and the time. */
  function Before(prev: Counters, since: int, obs: seq<Observation>, k: nat): (Counters, int)
    requires k < |obs|
  {
    if k == 0 then (prev, since) else (Taken(obs[k - 1].reading), obs[k - 1].at)
  }

  /** The difference between every observation and the sample before it. */
  function Differences(prev: Counters, since: int, obs: seq<Observation>): seq<NetStatus>
  {
    seq(|obs|, k requires 0 <= k < |obs| =>
      var (b, t) := Before(prev, since, obs, k);
      Speed(Taken(obs[k].reading).rx - b.rx, Taken(obs[k].reading).tx - b.tx, obs[k].at - t))
  }

  /** The error texts of the failed readings, in order. */
  function FailureTexts(obs: seq<Observation>): seq<string>
  {
    if |obs| == 0 then []
    else (if obs[0].reading.Failed? then [obs[0].reading.err] else []) + FailureTexts(obs[1..])
  }

  /** The rate statuses among sent statuses, in order. */
  function Speeds(ts: seq<Tagged<NetStatus>>): seq<NetStatus>
  {
    if |ts| == 0 then [] else SpeedOf(ts[0]) + Speeds(ts[1..])
  }

  /** The error texts among sent statuses, in order. */
  function Errors(ts: seq<Tagged<NetStatus>>): seq<string>
  {
    if |ts| == 0 then []
    else ErrorOf(ts[0]) + Errors(ts[1..])
  }

  function SpeedOf(t: Tagged<NetStatus>): seq<NetStatus>
  {
    if t.status.Speed? then [t.status] else []
  }

  function ErrorOf(t: Tagged<NetStatus>): seq<string>
  {
    if t.status.ErrorText? then [t.status.text] else []
  }

  lemma {:induction false} SpeedsAppend(a: seq<Tagged<NetStatus>>, b: seq<Tagged<NetStatus>>)
    ensures Speeds(a + b) == Speeds(a) + Speeds(b)
  {
    if |a| == 0 {
      assert a + b == b;
    } else {
      assert (a + b)[0] == a[0];
      assert (a + b)[1..] == a[1..] + b;
      SpeedsAppend(a[1..], b);
    }
  }

  lemma {:induction false} ErrorsAppend(a: seq<Tagged<NetStatus>>, b: seq<Tagged<NetStatus>>)
    ensures Errors(a + b) == Errors(a) + Errors(b)
  {
    if |a| == 0 {
      assert a + b == b;
    } else {
      assert (a + b)[0] == a[0];
      assert (a + b)[1..] == a[1..] + b;
      ErrorsAppend(a[1..], b);
    }
  }

  /** The rounds send, for every tick, the difference between its sample and
      the sample before it, and the error text of every failed reading. */
  lemma RoundsAreDifferences(id: int, prev: Counters, since: int, obs: seq<Observation>)
    ensures Speeds(Rounds(id, prev, since, obs)) == Differences(prev, since, obs)
    ensures Errors(Rounds(id, prev, since, obs)) == FailureTexts(obs)
    ensures |Rounds(id, prev, since, obs)| == |obs| + |FailureTexts(obs)|
    ensures Rounds(id, prev, since, obs) == Blocks(id, obs, Differences(prev, since, obs))
  {
    RoundsProjections(id, prev, since, obs);
    RoundsAreBlocks(id, prev, since, obs);
  }

  /** The rate statuses, the error texts and the count of the rounds. */
  lemma {:induction false} RoundsProjections(id: int, prev: Counters, since: int, obs: seq<Observation>)
    ensures Speeds(Rounds(id, prev, since, obs)) == Differences(prev, since, obs)
    ensures Errors(Rounds(id, prev, since, obs)) == FailureTexts(obs)
    ensures |Rounds(id, prev, since, obs)| == |obs| + |FailureTexts(obs)|
    decreases |obs|
  {
    if |obs| > 0 {
      var o := obs[0];
      var c := Taken(o.reading);
      var e := ErrorPart(id, o.reading);
      var d := [Tagged(id, Speed(c.rx - prev.rx, c.tx - prev.tx, o.at - since))];
      var rest := Rounds(id, c, o.at, obs[1..]);
      RoundsProjections(id, c, o.at, obs[1..]);
      SpeedsAppend(e + d, rest);
      ErrorsAppend(e + d, rest);
      SpeedsAppend(e, d);
      ErrorsAppend(e, d);
      assert Speeds(d) == [d[0].status];
      assert Errors(d) == [];
      assert Speeds(e) == [];
      assert Errors(e) == (if o.reading.Failed? then [o.reading.err] else []);
      DifferencesCons(prev, since, obs);
    }
  }

  /** One block per observation, in order: its error text, if the reading
      failed, then the status given for it. */
  function Blocks(id: int, obs: seq<Observation>, ds: seq<NetStatus>): seq<Tagged<NetStatus>>
    requires |ds| == |obs|
  {
    if |obs| == 0 then []
    else ErrorPart(id, obs[0].reading) + [Tagged(id, ds[0])] + Blocks(id, obs[1..], ds[1..])
  }

  /** Each tick's block is its own failure text followed by its own difference. */
  lemma {:induction false} RoundsAreBlocks(id: int, prev: Counters, since: int, obs: seq<Observation>)
    ensures Rounds(id, prev, since, obs) == Blocks(id, obs, Differences(prev, since, obs))
    decreases |obs|
  {
    if |obs| > 0 {
      var c := Taken(obs[0].reading);
      DifferencesCons(prev, since, obs);
      RoundsAreBlocks(id, c, obs[0].at, obs[1..]);
      assert Differences(prev, since, obs)[1..] == Differences(c, obs[0].at, obs[1..]);
    }
  }

  /** The first difference is taken from the given sample, the rest from
      the first observation on. */
  lemma DifferencesCons(prev: Counters, since: int, obs: seq<Observation>)
    requires |obs| > 0
    ensures Differences(prev, since, obs)
         == [Speed(Taken(obs[0].reading).rx - prev.rx, Taken(obs[0].reading).tx - prev.tx, obs[0].at - since)]
            + Differences(Taken(obs[0].reading), obs[0].at, obs[1..])
  {
    var c := Taken(obs[0].reading);
    var ds, tail := Differences(prev, since, obs), Differences(c, obs[0].at, obs[1..]);
    forall k | 1 <= k < |obs| ensures ds[k] == tail[k - 1] {
      assert obs[1..][k - 1] == obs[k];
      if k > 1 { assert obs[1..][k - 2] == obs[k - 1]; }
    }
  }

  /** Every status of the rounds carries the producer's id. */
  lemma {:induction false} RoundsTagged(id: int, prev: Counters, since: int, obs: seq<Observation>)
    ensures AllIds(Rounds(id, prev, since, obs), id)
    decreases |obs|
  {
    if |obs| > 0 {
      var c := Taken(obs[0].reading);
      var e := ErrorPart(id, obs[0].reading);
      var d := [Tagged(id, Speed(c.rx - prev.rx, c.tx - prev.tx, obs[0].at - since))];
      RoundsTagged(id, c, obs[0].at, obs[1..]);
      AllIdsAppend(e, d, id);
      AllIdsAppend(e + d, Rounds(id, c, obs[0].at, obs[1..]), id);
    }
  }

  /** The received bytes the rate statuses account for add up to the
      counter's change from the first sample to the last: nothing is counted
      twice or dropped when the previous sample is replaced. */
  lemma {:induction false} RatesTelescope(prev: Counters, since: int, obs: seq<Observation>)
    requires |obs| > 0
    ensures SumRx(Differences(prev, since, obs)) == Taken(obs[|obs| - 1].reading).rx - prev.rx
    ensures SumTx(Differences(prev, since, obs)) == Taken(obs[|obs| - 1].reading).tx - prev.tx
    ensures SumElapsed(Differences(prev, since, obs)) == obs[|obs| - 1].at - since
    decreases |obs|
  {
    var ds := Differences(prev, since, obs);
    var c := Taken(obs[0].reading);
    if |obs| > 1 {
      var tail := Differences(c, obs[0].at, obs[1..]);
      assert ds[1..] == tail by {
        forall k | 0 <= k < |tail| ensures ds[1..][k] == tail[k] {
          assert obs[1..][k] == obs[k + 1];
          if k > 0 { assert obs[1..][k - 1] == obs[k]; }
        }
      }
      RatesTelescope(c, obs[0].at, obs[1..]);
      assert obs[1..][|obs| - 2] == obs[|obs| - 1];
    } else {
      assert ds[1..] == [];
    }
  }

  function SumRx(ds: seq<NetStatus>): int
  {
    if |ds| == 0 then 0 else (if ds[0].Speed? then ds[0].rxBytes else 0) + SumRx(ds[1..])
  }

  function SumTx(ds: seq<NetStatus>): int
  {
    if |ds| == 0 then 0 else (if ds[0].Speed? then ds[0].txBytes else 0) + SumTx(ds[1..])
  }

  function SumElapsed(ds: seq<NetStatus>): int
  {
    if |ds| == 0 then 0 else (if ds[0].Speed? then ds[0].elapsed else 0) + SumElapsed(ds[1..])
  }

  /** Timestamps that increase from tick to tick. */
  predicate Increasing(since: int, obs: seq<Observation>)
  {
    (|obs| > 0 ==> since < obs[0].at)
    && forall k :: 0 < k < |obs| ==> obs[k - 1].at < obs[k].at
  }

  /** With increasing timestamps every rate status has a positive duration,
      so `Show` can render all of them. */
  lemma ElapsedPositive(prev: Counters, since: int, obs: seq<Observation>)
    requires Increasing(since, obs)
    ensures forall k :: 0 <= k < |obs| ==> Differences(prev, since, obs)[k].elapsed > 0
  {
  }

  /** The first statuses sent: the first reading's error, if any, then zero
      rates, for every id and every event sequence. */
  lemma StartsWithZeroRates(id: int, first: Observation, evs: seq<Event<Observation>>)
    ensures first.reading.Read? ==> Emissions(id, first, evs)[0] == Tagged(id, Start)
    ensures first.reading.Failed? ==> Emissions(id, first, evs)[..2]
                                      == [Tagged(id, ErrorText(first.reading.err)), Tagged(id, Start)]
  {
  }

  /** The producer stops at the first `done`: nothing after it is sent. */
  lemma StopsAtDone(id: int, first: Observation, a: seq<Event<Observation>>, b: seq<Event<Observation>>)
    requires forall k :: 0 <= k < |a| ==> a[k].Tick?
    ensures Emissions(id, first, a + [Done] + b) == Emissions(id, first, a)
  {
    UntilDoneOfTicks(a, b);
  }

  /** After a failed reading the next round is measured against zero
      counters, so it reports the whole counter as transferred since then. */
  lemma AfterFailureFromZero(id: int, prev: Counters, since: int, obs: seq<Observation>)
    requires |obs| >= 2 && obs[0].reading.Failed? && obs[1].reading.Read?
    ensures Differences(prev, since, obs)[1]
         == Speed(obs[1].reading.value.rx, obs[1].reading.value.tx, obs[1].at - obs[0].at)
  {
  }
}

=== FILE: outcomes.dfy ===
/** Failure-carrying values shared by every module of the status bar model. */
module Outcomes {

  /** A value that may be absent: a failed Go type assertion, a missing map key. */
  datatype Option<+T> = None | Some(value: T)

  /** The outcome of a Go call that returns `(value, error)`.
      `Err` carries the text of the returned error; `Panic` stands for a Go
      runtime panic (an out-of-range slice or index) that would crash the
      program instead of returning. */
  datatype Result<+T> = Ok(value: T) | Err(msg: string) | Panic(reason: string)
  {
    /** True when the call returned normally, with or without an error. */
    predicate Returned() { !Panic? }
  }
}

=== FILE: proc_meminfo.dfy ===
/** The `/proc/meminfo` scan that mem.go, meminfo.go and ram.go each carry a
    copy of: lines starting with "MemTotal" or "MemAvailable" contribute the
    first run of digits after the key, in kB, scaled by 1000; the scan ends
    once both values are non-zero. */
module ProcMeminfo {
  import opened Outcomes
  import opened Decimal
  import opened Text

  /** Total and available memory in bytes (kB times 1000, as meminfo.go scales). */
  datatype Memory = Memory(total: int, free: int)

  const Zero := Memory(0, 0)
  const ParseFailed := "parsing /proc/meminfo failed"

  /** What the scan can report: non-negative whole multiples of 1000 bytes. */
  predicate InBytes(m: Memory)
  {
    m.total >= 0 && m.free >= 0 && m.total % 1000 == 0 && m.free % 1000 == 0
  }

  /** Both values known: the condition that ends the scan. */
  predicate Complete(m: Memory) { m.total != 0 && m.free != 0 }

  /** The kB count after `key` on a line: the first digit run, when there is
      one and it fits an int64. */
  function Kb(line: string, key: string): Option<nat>
    requires HasPrefix(line, key)
  {
    var run := FirstDigitRun(line[|key|..]);
    if run != "" && DigitsValue(run) <= MaxInt64 then Some(DigitsValue(run)) else None
  }

  /** A line that neither key starts. */
  predicate Unrelated(line: string)
  {
    !HasPrefix(line, "MemTotal") && !HasPrefix(line, "MemAvailable")
  }

  /** `strconv.ParseInt` of the first digit run after `key`. */
  function ParseKb(line: string, key: string): (r: Option<int>)
    requires HasPrefix(line, key)
    ensures r == Kb(line, key)
  {
    var run := FirstDigitRun(line[|key|..]);
    assert run != "" ==> Unsigned(run) == run;
    match ParseInt(run)
    case Ok(kb) => Some(kb)
    case _ => None
  }

  /** One pass of the loop body's `switch`. */
  function ScanLine(m: Memory, line: string): (r: Result<Memory>)
    ensures r.Ok? || r.Err?
    ensures r.Err? ==> r.msg == ParseFailed
    ensures HasPrefix(line, "MemTotal") ==>
              (r.Ok? <==> Kb(line, "MemTotal").Some? && Kb(line, "MemTotal").value != 0)
              && (r.Ok? ==> r.value == m.(total := 1000 * Kb(line, "MemTotal").value))
    ensures HasPrefix(line, "MemAvailable") ==>
              (r.Ok? <==> Kb(line, "MemAvailable").Some?)
              && (r.Ok? ==> r.value == m.(free := 1000 * Kb(line, "MemAvailable").value))
    ensures Unrelated(line) ==> r == Ok(m)
    ensures InBytes(m) && r.Ok? ==> InBytes(r.value)
  {
    if HasPrefix(line, "MemTotal") then
      assert !HasPrefix(line, "MemAvailable") by { assert line[3] == "MemTotal"[3]; }
      match ParseKb(line, "MemTotal")
      case Some(kb) => if kb == 0 then Err(ParseFailed) else ScaledByThousand(kb); Ok(m.(total := kb * 1000))
      case None => Err(ParseFailed)
    else if HasPrefix(line, "MemAvailable") then
      match ParseKb(line, "MemAvailable")
      case Some(kb) => ScaledByThousand(kb); Ok(m.(free := kb * 1000))
      case None => Err(ParseFailed)
    else Ok(m)
  }

  lemma ScaledByThousand(kb: int)
    requires kb >= 0
    ensures kb * 1000 >= 0 && (kb * 1000) % 1000 == 0
  {
  }

  /** The `for scanner.Scan()` loop from state `m` over the remaining lines. */
  function Scan(m: Memory, lines: seq<string>): (r: Result<Memory>)
    ensures r.Ok? || r.Err?
    ensures r.Err? ==> r.msg == ParseFailed
    ensures InBytes(m) && r.Ok? ==> InBytes(r.value)
    decreases |lines|
  {
    if |lines| == 0 then Ok(m)
    else match ScanLine(m, lines[0])
      case Ok(m') => if Complete(m') then Ok(m') else Scan(m', lines[1..])
      case _ => Err(ParseFailed)
  }

  /** Once both values are known, the lines that follow cannot change the result. */
  lemma {:induction false} LaterLinesIgnored(m: Memory, a: seq<string>, b: seq<string>)
    requires !Complete(m)
    requires Scan(m, a).Ok? && Complete(Scan(m, a).value)
    ensures Scan(m, a + b) == Scan(m, a)
    decreases |a|
  {
    assert |a| > 0;
    assert (a + b)[0] == a[0];
    assert (a + b)[1..] == a[1..] + b;
    match ScanLine(m, a[0])
    case Ok(m') =>
      if !Complete(m') {
        LaterLinesIgnored(m', a[1..], b);
      }
    case _ =>
  }

  /** A line that neither key starts can be removed without changing the result. */
  lemma {:induction false} UnrelatedLineIgnored(m: Memory, a: seq<string>, line: string, b: seq<string>)
    requires !Complete(m)
    requires Unrelated(line)
    ensures Scan(m, a + [line] + b) == Scan(m, a + b)
    decreases |a|
  {
    if |a| == 0 {
      assert a + [line] + b == [line] + b;
      assert ([line] + b)[1..] == b;
      assert a + b == b;
    } else {
      assert (a + [line] + b)[0] == a[0] && (a + b)[0] == a[0];
      assert (a + [line] + b)[1..] == a[1..] + [line] + b;
      assert (a + b)[1..] == a[1..] + b;
      match ScanLine(m, a[0])
      case Ok(m') =>
        if !Complete(m') {
          UnrelatedLineIgnored(m', a[1..], line, b);
        }
      case _ =>
    }
  }

  /** Without either key the scan reports zero memory and no error. */
  lemma {:induction false} NoKeyGivesZero(lines: seq<string>)
    requires forall k :: 0 <= k < |lines| ==> Unrelated(lines[k])
    ensures Scan(Zero, lines) == Ok(Zero)
  {
    if |lines| > 0 {
      NoKeyGivesZero(lines[1..]);
    }
  }

  // ---------------------------------------------------------------------
  // A line in the kernel's field order: "Key:", a fixed gap of blanks, the
  // number, " kB" (the kernel itself right-aligns the number in a column).
  // ---------------------------------------------------------------------

  /** A meminfo line in the kernel's field order, with a fixed gap. */
  function KernelLine(key: string, kb: nat): string
  {
    key + ":" + "       " + FormatNat(kb) + " kB"
  }

  /** The head of a meminfo file: MemTotal, MemFree, MemAvailable, then any
      further lines. */
  function KernelLines(totalKb: nat, freeKb: nat, availKb: nat, rest: seq<string>): seq<string>
  {
    [KernelLine("MemTotal", totalKb), KernelLine("MemFree", freeKb), KernelLine("MemAvailable", availKb)] + rest
  }

  lemma KernelLineKb(key: string, kb: nat)
    requires kb <= MaxInt64
    ensures HasPrefix(KernelLine(key, kb), key)
    ensures Kb(KernelLine(key, kb), key) == Some(kb)
  {
    var line := KernelLine(key, kb);
    var digits := FormatNat(kb);
    assert line[|key|..] == ":       " + digits + " kB";
    PaddedRun(digits);
    FormatNatValue(kb);
  }

  /** The first digit run after the key's colon and padding is the number. */
  lemma PaddedRun(digits: string)
    requires |digits| > 0 && AllDigits(digits)
    ensures FirstDigitRun(":       " + digits + " kB") == digits
  {
    var tail := ":       " + digits + " kB";
    assert FirstDigitIndex(tail) == 8 by {
      assert IsDigit(tail[8]);
      assert forall j :: 0 <= j < 8 ==> !IsDigit(tail[j]);
    }
    DigitsThenBlank(digits, " kB");
    assert tail[8..] == digits + " kB";
  }

  lemma DigitsThenBlank(digits: string, rest: string)
    requires AllDigits(digits) && |rest| > 0 && rest[0] == ' '
    ensures DigitPrefixLen(digits + rest) == |digits|
  {
    var s := digits + rest;
    assert forall j :: 0 <= j < |digits| ==> IsDigit(s[j]);
    assert !IsDigit(s[|digits|]);
  }

  /** A scan of a file with such head lines finds MemTotal and MemAvailable, scaled by 1000. */
  lemma ReadsKernelLayout(totalKb: nat, freeKb: nat, availKb: nat, rest: seq<string>)
    requires 1 <= totalKb <= MaxInt64 && 1 <= availKb <= MaxInt64 && freeKb <= MaxInt64
    ensures Scan(Zero, KernelLines(totalKb, freeKb, availKb, rest)) == Ok(Memory(1000 * totalKb, 1000 * availKb))
  {
    var m1 := Memory(1000 * totalKb, 0);
    var m2 := Memory(1000 * totalKb, 1000 * availKb);
    TotalLineScanned(totalKb);
    FreeLineScanned(m1, freeKb);
    AvailableLineScanned(m1, availKb);
    ScanOfThree(KernelLine("MemTotal", totalKb), KernelLine("MemFree", freeKb),
                KernelLine("MemAvailable", availKb), rest, m1, m2);
  }

  lemma TotalLineScanned(kb: nat)
    requires 1 <= kb <= MaxInt64
    ensures ScanLine(Zero, KernelLine("MemTotal", kb)) == Ok(Memory(1000 * kb, 0))
  {
    KernelLineKb("MemTotal", kb);
  }

  lemma FreeLineScanned(m: Memory, kb: nat)
    ensures ScanLine(m, KernelLine("MemFree", kb)) == Ok(m)
  {
    var l := KernelLine("MemFree", kb);
    assert Unrelated(l) by { assert l[3] == 'F'; }
  }

  lemma AvailableLineScanned(m: Memory, kb: nat)
    requires kb <= MaxInt64
    ensures ScanLine(m, KernelLine("MemAvailable", kb)) == Ok(m.(free := 1000 * kb))
  {
    var l := KernelLine("MemAvailable", kb);
    assert l[..8][3] == 'A' && "MemTotal"[3] == 'T';
    assert !HasPrefix(l, "MemTotal");
    KernelLineKb("MemAvailable", kb);
  }

  /** Three lines that find the total, leave it, and then complete the
      values end the scan there. */
  lemma ScanOfThree(a: string, b: string, c: string, rest: seq<string>, m1: Memory, m2: Memory)
    ensures ScanLine(Zero, a) == Ok(m1) && !Complete(m1) && ScanLine(m1, b) == Ok(m1)
            && ScanLine(m1, c) == Ok(m2) && Complete(m2)
            ==> Scan(Zero, [a, b, c] + rest) == Ok(m2)
  {
    if ScanLine(Zero, a) == Ok(m1) && !Complete(m1) && ScanLine(m1, b) == Ok(m1)
       && ScanLine(m1, c) == Ok(m2) && Complete(m2)
    {
      var ls := [a, b, c] + rest;
      assert ls[0] == a && ls[1..][0] == b && ls[1..][1..][0] == c;
      ScanFirst(Zero, ls, m1);
      ScanFirst(m1, ls[1..], m1);
      ScanComplete(m1, ls[1..][1..], m2);
    }
  }

  /** A line that completes both values ends the scan. */
  lemma ScanComplete(m: Memory, ls: seq<string>, m': Memory)
    requires |ls| > 0 && ScanLine(m, ls[0]) == Ok(m') && Complete(m')
    ensures Scan(m, ls) == Ok(m')
  {
  }

  /** A line that leaves a value unknown passes the scan on to the next line. */
  lemma ScanFirst(m: Memory, ls: seq<string>, m': Memory)
    requires |ls| > 0 && ScanLine(m, ls[0]) == Ok(m') && !Complete(m')
    ensures Scan(m, ls) == Scan(m', ls[1..])
  {
  }

  lemma KernelLinePlain(key: string, kb: nat)
    requires PlainLine(key)
    ensures PlainLine(KernelLine(key, kb))
  {
    var digits := FormatNat(kb);
    var l := KernelLine(key, kb);
    assert l == key + (":       " + digits + " kB");
  }

  /** Reading a file with such head lines, line splitting included, finds
      MemTotal and MemAvailable scaled by 1000. */
  lemma ReadsKernelFile(totalKb: nat, freeKb: nat, availKb: nat, rest: seq<string>)
    requires 1 <= totalKb <= MaxInt64 && 1 <= availKb <= MaxInt64 && freeKb <= MaxInt64
    requires forall k :: 0 <= k < |rest| ==> PlainLine(rest[k])
    ensures Scan(Zero, ScanLines(Unlines(KernelLines(totalKb, freeKb, availKb, rest))))
         == Ok(Memory(1000 * totalKb, 1000 * availKb))
  {
    var ls := KernelLines(totalKb, freeKb, availKb, rest);
    KernelLinePlain("MemTotal", totalKb);
    KernelLinePlain("MemFree", freeKb);
    KernelLinePlain("MemAvailable", availKb);
    assert forall k :: 0 <= k < |ls| ==> PlainLine(ls[k]) by {
      forall k | 0 <= k < |ls| ensures PlainLine(ls[k]) {
        if k >= 3 { assert ls[k] == rest[k - 3]; }
      }
    }
    ScanUnlines(ls);
    ReadsKernelLayout(totalKb, freeKb, availKb, rest);
  }
}

=== FILE: producer.dfy ===
/** What a status producer sees and sends, as sequences. A producer is a
    loop over timer ticks and, in the revisions that have one, a `done`
    signal; the order in which these arrive is an input here. Every module
    instantiates `Loop` with its own step: what one observation emits. */
module Producer {

  /** One event a producer's `select` receives: a tick carrying what was
      sampled at that tick (the tick's time, or a reading), or `done`. */
  datatype Event<T> = Tick(sample: T) | Done

  /** A reading that returned: its value, or the error's text. */
  datatype Reading<T> = Read(value: T) | Failed(err: string)

  /** A status sent on a shared channel, tagged with its producer's id. */
  datatype Tagged<V> = Tagged(id: int, status: V)

  /** The events before the first `done`. */
  function UntilDone<T>(evs: seq<Event<T>>): (r: seq<Event<T>>)
    ensures |r| <= |evs| && r == evs[..|r|]
    ensures forall k :: 0 <= k < |r| ==> r[k].Tick?
    ensures |r| < |evs| ==> evs[|r|].Done?
  {
    if |evs| == 0 || evs[0].Done? then [] else [evs[0]] + UntilDone(evs[1..])
  }

  /** The samples carried by the ticks, in order. */
  function Samples<T>(evs: seq<Event<T>>): (r: seq<T>)
    ensures |r| <= |evs|
  {
    if |evs| == 0 then []
    else if evs[0].Done? then Samples(evs[1..])
    else [evs[0].sample] + Samples(evs[1..])
  }

  /** The events a producer receives: those before the first `done` when it
      listens for one, all of them otherwise. */
  function Handled<T>(evs: seq<Event<T>>, listensDone: bool): seq<Event<T>>
  {
    if listensDone then UntilDone(evs) else evs
  }

  /** The emissions of each sample, concatenated in order. */
  function FlatMap<T, U>(xs: seq<T>, f: T -> seq<U>): seq<U>
  {
    if |xs| == 0 then [] else f(xs[0]) + FlatMap(xs[1..], f)
  }

  /** The `for { select { case <-tick.C: ...; case <-done: break } }` loop:
      each tick emits `step` of its sample; a `done` ends the loop when the
      producer listens for it and is never received otherwise. */
  function Loop<T, U>(evs: seq<Event<T>>, listensDone: bool, step: T -> seq<U>): seq<U>
  {
    if |evs| == 0 then []
    else match evs[0]
      case Done => if listensDone then [] else Loop(evs[1..], listensDone, step)
      case Tick(s) => step(s) + Loop(evs[1..], listensDone, step)
  }

  /** The loop emits, in order, the step of every sample it handles: those
      before the first `done` when it listens for one, all of them otherwise. */
  lemma {:induction false} LoopEmits<T, U>(evs: seq<Event<T>>, listensDone: bool, step: T -> seq<U>)
    ensures Loop(evs, listensDone, step)
         == FlatMap(Samples(Handled(evs, listensDone)), step)
  {
    if |evs| > 0 {
      LoopEmits(evs[1..], listensDone, step);
      if evs[0].Tick? {
        assert Samples(evs) == [evs[0].sample] + Samples(evs[1..]);
        if listensDone {
          assert UntilDone(evs) == [evs[0]] + UntilDone(evs[1..]);
          assert ([evs[0]] + UntilDone(evs[1..]))[1..] == UntilDone(evs[1..]);
        }
      }
    }
  }

  /** Nothing after the first `done` reaches a listening producer's output. */
  lemma NothingAfterDone<T, U>(a: seq<Event<T>>, b: seq<Event<T>>, step: T -> seq<U>)
    requires forall k :: 0 <= k < |a| ==> a[k].Tick?
    ensures Loop(a + [Done] + b, true, step) == Loop(a, true, step)
  {
    LoopEmits(a + [Done] + b, true, step);
    LoopEmits(a, true, step);
    UntilDoneOfTicks(a, b);
  }

  lemma {:induction false} UntilDoneOfTicks<T>(a: seq<Event<T>>, b: seq<Event<T>>)
    requires forall k :: 0 <= k < |a| ==> a[k].Tick?
    ensures UntilDone(a + [Done] + b) == a && UntilDone(a) == a
  {
    if |a| > 0 {
      assert (a + [Done] + b)[1..] == a[1..] + [Done] + b;
      UntilDoneOfTicks(a[1..], b);
    }
  }

  /** A producer that does not listen for `done` treats the signal as if it
      had never been sent. */
  lemma {:induction false} DoneIgnored<T, U>(a: seq<Event<T>>, b: seq<Event<T>>, step: T -> seq<U>)
    ensures Loop(a + [Done] + b, false, step) == Loop(a + b, false, step)
  {
    if |a| == 0 {
      assert (a + [Done] + b)[1..] == b;
      assert a + b == b;
    } else {
      assert (a + [Done] + b)[1..] == a[1..] + [Done] + b;
      assert (a + b)[1..] == a[1..] + b;
      DoneIgnored(a[1..], b, step);
    }
  }

  /** A step that always emits exactly once yields one emission per sample. */
  lemma {:induction false} FlatMapSingle<T, U>(xs: seq<T>, f: T -> seq<U>)
    requires forall x :: |f(x)| == 1
    ensures |FlatMap(xs, f)| == |xs|
    ensures forall k :: 0 <= k < |xs| ==> FlatMap(xs, f)[k] == f(xs[k])[0]
  {
    if |xs| > 0 {
      FlatMapSingle(xs[1..], f);
      assert |f(xs[0])| == 1;
      forall k | 0 <= k < |xs|
        ensures FlatMap(xs, f)[k] == f(xs[k])[0]
      {
        if k > 0 {
          assert FlatMap(xs, f)[k] == FlatMap(xs[1..], f)[k - 1];
        }
      }
    }
  }

  /** The values of the readings that succeeded, in order. */
  function Successes<T>(rs: seq<Reading<T>>): (r: seq<T>)
    ensures |r| <= |rs|
  {
    if |rs| == 0 then []
    else if rs[0].Failed? then Successes(rs[1..])
    else [rs[0].value] + Successes(rs[1..])
  }

  /** Emit the value of a successful reading and nothing for a failed one. */
  function SkipFailed<T>(r: Reading<T>): seq<T>
  {
    if r.Read? then [r.value] else []
  }

  /** Under the skip-on-error policy the emissions are exactly the values of
      the successful readings, in order. */
  lemma {:induction false} SkipFailedEmitsSuccesses<T>(rs: seq<Reading<T>>)
    ensures FlatMap(rs, SkipFailed) == Successes(rs)
  {
    if |rs| > 0 {
      SkipFailedEmitsSuccesses(rs[1..]);
    }
  }

  /** A producer that emits one status at start, then one per tick it
      handles: the shape of the date, time, battery and RAM producers. */
  function Periodic<T, U>(first: T, evs: seq<Event<T>>, listensDone: bool, f: T -> U): (r: seq<U>)
    ensures var s := Samples(Handled(evs, listensDone));
              |r| == 1 + |s| && r[0] == f(first)
              && forall k :: 0 <= k < |s| ==> r[k + 1] == f(s[k])
  {
    var step := (x: T) => [f(x)];
    LoopEmits(evs, listensDone, step);
    FlatMapSingle(Samples(Handled(evs, listensDone)), step);
    [f(first)] + Loop(evs, listensDone, step)
  }

  /** A producer without an initial emission that sends the value of each
      successful reading and skips failed ones: the mem and meminfo producers. */
  function SkipOnError<T>(evs: seq<Event<Reading<T>>>, listensDone: bool): (r: seq<T>)
    ensures r == Successes(Samples(Handled(evs, listensDone)))
  {
    LoopEmits(evs, listensDone, SkipFailed);
    SkipFailedEmitsSuccesses(Samples(Handled(evs, listensDone)));
    Loop(evs, listensDone, SkipFailed)
  }

  /** The samples of two traces in a row are those of each, in a row. */
  lemma {:induction false} SamplesAppend<T>(a: seq<Event<T>>, b: seq<Event<T>>)
    ensures Samples(a + b) == Samples(a) + Samples(b)
  {
    if |a| > 0 {
      assert (a + b)[1..] == a[1..] + b;
      SamplesAppend(a[1..], b);
    } else {
      assert a + b == b;
    }
  }

  /** A `done` in the middle of the events removes no tick from the samples. */
  lemma SamplesSkipDone<T>(a: seq<Event<T>>, b: seq<Event<T>>)
    ensures Samples(a + [Done] + b) == Samples(a) + Samples(b)
    ensures Samples(a + b) == Samples(a) + Samples(b)
  {
    SamplesAppend(a, b);
    assert a + [Done] + b == a + ([Done] + b);
    SamplesAppend(a, [Done] + b);
    assert ([Done] + b)[1..] == b;
  }
}

=== FILE: ram.dfy ===
/** ram.go: the RAM module of the revision whose producers take an id and a
    `done` channel; a failed read is shown as the error's text. */
module Ram {
  import opened Outcomes
  import opened Decimal
  import opened Text
  import opened Producer
  import opened ProcMeminfo

  /** Total and available memory in bytes. */
  type RAM = Memory

  /** What the producer sends for one observation. The usage percentage is
      computed in floating point from `RAM` and is not modelled. */
  datatype RamStatus = Usage(ram: RAM) | ErrorText(text: string)

  /** ReadRAM over the outcome of opening /proc/meminfo; an open error is
      returned as it is. */
  function ReadRAM(file: FileRead): (r: Result<RAM>)
    ensures r.Ok? || r.Err?
    ensures file.ReadError? ==> r == Err(file.msg)
    ensures file.Contents? && r.Err? ==> r.msg == ParseFailed
    ensures r.Ok? ==> InBytes(r.value)
    ensures file == Contents("") ==> r == Ok(Zero)
  {
    match file
    case ReadError(msg) => Err(msg)
    case Contents(data) => Scan(Zero, ScanLines(data))
  }

  /** A /proc/meminfo whose head lines follow the kernel's field order reads as MemTotal and MemAvailable times 1000. */
  lemma ReadsKernelFile(totalKb: nat, freeKb: nat, availKb: nat, rest: seq<string>)
    requires 1 <= totalKb <= MaxInt64 && 1 <= availKb <= MaxInt64 && freeKb <= MaxInt64
    requires forall k :: 0 <= k < |rest| ==> PlainLine(rest[k])
    ensures ReadRAM(Contents(Unlines(KernelLines(totalKb, freeKb, availKb, rest))))
         == Ok(Memory(1000 * totalKb, 1000 * availKb))
  {
    ProcMeminfo.ReadsKernelFile(totalKb, freeKb, availKb, rest);
  }

  /** The producer's `fn`: a failed read is shown as its error's text. */
  function Show(id: int, o: Reading<RAM>): Tagged<RamStatus>
  {
    match o
    case Read(ram) => Tagged(id, Usage(ram))
    case Failed(e) => Tagged(id, ErrorText(e))
  }

  /** StatusRAMUsage: one status at start, one per tick, nothing after `done`;
      every status carries the producer's id. */
  function Emissions(id: int, first: Reading<RAM>, evs: seq<Event<Reading<RAM>>>): (r: seq<Tagged<RamStatus>>)
    ensures var s := Samples(UntilDone(evs));
              |r| == 1 + |s|
              && (forall k :: 0 <= k < |r| ==> r[k].id == id)
              && (first.Failed? ==> r[0].status == ErrorText(first.err))
              && (first.Read? ==> r[0].status == Usage(first.value))
              && (forall k :: 0 <= k < |s| && s[k].Failed? ==> r[k + 1].status == ErrorText(s[k].err))
              && (forall k :: 0 <= k < |s| && s[k].Read? ==> r[k + 1].status == Usage(s[k].value))
  {
    var s := Samples(UntilDone(evs));
    assert Handled(evs, true) == UntilDone(evs);
    var f := (o: Reading<RAM>) => Show(id, o);
    var r := Periodic(first, evs, true, f);
    assert forall k :: 0 <= k < |s| ==> r[k + 1] == f(s[k]);
    assert forall k :: 0 <= k < |r| ==> r[k].id == id by {
      forall k | 0 <= k < |r| ensures r[k].id == id {
        if k > 0 { assert r[k] == Show(id, s[k - 1]); }
      }
    }
    r
  }
}

=== FILE: text.dfy ===
/** Text handling the status modules rely on: prefix tests, dropping a
    file's trailing newline byte, `bufio.Scanner` line splitting,
    `strings.Fields` and `strings.Join`. */
module Text {
  import opened Outcomes

  /** What reading one file yields: its whole content, or the error's text. */
  datatype FileRead = Contents(data: string) | ReadError(msg: string)

  predicate HasPrefix(s: string, p: string) { |p| <= |s| && s[..|p|] == p }

  /** `s[:len(s)-1]`, used to drop the trailing newline of a sysfs file; Go
      panics on an empty slice. Characters stand for bytes. */
  function DropLast(s: string): (r: Result<string>)
    ensures r.Ok? || r.Panic?
    ensures r.Ok? <==> |s| > 0
    ensures r.Ok? ==> r.value + [s[|s| - 1]] == s
  {
    if |s| == 0 then Panic("runtime error: slice bounds out of range [:-1]") else Ok(s[..|s| - 1])
  }

  // ---------------------------------------------------------------------
  // bufio.Scanner with ScanLines
  // ---------------------------------------------------------------------

  /** Index of the first '\n' of `s`, or |s| when there is none. */
  function NewlineIndex(s: string): (i: nat)
    ensures i <= |s|
    ensures i < |s| ==> s[i] == '\n'
    ensures forall j :: 0 <= j < i ==> s[j] != '\n'
  {
    if |s| == 0 || s[0] == '\n' then 0 else 1 + NewlineIndex(s[1..])
  }

  /** A line loses one trailing carriage return. */
  function DropCR(s: string): string
  {
    if |s| > 0 && s[|s| - 1] == '\r' then s[..|s| - 1] else s
  }

  /** The lines a `bufio.Scanner` yields: text up to each '\n' without the
      newline and one trailing '\r'; a final line without newline is still
      a line; empty content yields none. */
  function ScanLines(s: string): (ls: seq<string>)
    ensures forall k :: 0 <= k < |ls| ==> '\n' !in ls[k]
    ensures |s| > 0 <==> |ls| > 0
    decreases |s|
  {
    if |s| == 0 then []
    else
      var i := NewlineIndex(s);
      if i == |s| then [DropCR(s)] else [DropCR(s[..i])] + ScanLines(s[i + 1..])
  }

  predicate PlainLine(l: string)
  {
    '\n' !in l && (|l| == 0 || l[|l| - 1] != '\r')
  }

  /** A file made of the given lines, each terminated by '\n'. */
  function Unlines(ls: seq<string>): string
  {
    if |ls| == 0 then "" else ls[0] + "\n" + Unlines(ls[1..])
  }

  /** Scanning a file written line by line gives the lines back. */
  lemma {:induction false} ScanUnlines(ls: seq<string>)
    requires forall k :: 0 <= k < |ls| ==> PlainLine(ls[k])
    ensures ScanLines(Unlines(ls)) == ls
  {
    if |ls| > 0 {
      var s := Unlines(ls);
      var l := ls[0];
      assert s == l + "\n" + Unlines(ls[1..]);
      assert s[|l|] == '\n';
      assert forall j :: 0 <= j < |l| ==> s[j] == l[j];
      var i := NewlineIndex(s);
      assert i == |l|;
      assert s[..i] == l;
      assert s[i + 1..] == Unlines(ls[1..]);
      ScanUnlines(ls[1..]);
    }
  }

  // ---------------------------------------------------------------------
  // strings.Fields
  // ---------------------------------------------------------------------

  /** Go's unicode.IsSpace. */
  predicate IsSpace(c: char)
  {
    c == ' ' || c == '\t' || c == '\n' || c == '\U{000B}' || c == '\U{000C}' || c == '\r'
    || c == '\U{0085}' || c == '\U{00A0}' || c == '\U{1680}' || ('\U{2000}' <= c <= '\U{200A}')
    || c == '\U{2028}' || c == '\U{2029}' || c == '\U{202F}' || c == '\U{205F}' || c == '\U{3000}'
  }

  predicate NoSpace(s: string) { forall i :: 0 <= i < |s| ==> !IsSpace(s[i]) }

  function SpacePrefixLen(s: string): (n: nat)
    ensures n <= |s|
    ensures forall j :: 0 <= j < n ==> IsSpace(s[j])
    ensures n < |s| ==> !IsSpace(s[n])
  {
    if |s| > 0 && IsSpace(s[0]) then 1 + SpacePrefixLen(s[1..]) else 0
  }

  function WordPrefixLen(s: string): (n: nat)
    ensures n <= |s|
    ensures NoSpace(s[..n])
    ensures n < |s| ==> IsSpace(s[n])
  {
    if |s| > 0 && !IsSpace(s[0]) then 1 + WordPrefixLen(s[1..]) else 0
  }

  /** strings.Fields: the maximal runs of non-space characters, in order. */
  function Fields(s: string): (fs: seq<string>)
    ensures forall k :: 0 <= k < |fs| ==> |fs[k]| > 0 && NoSpace(fs[k])
    decreases |s|
  {
    var rest := s[SpacePrefixLen(s)..];
    if |rest| == 0 then []
    else
      var n := WordPrefixLen(rest);
      [rest[..n]] + Fields(rest[n..])
  }

  /** Leading white space does not change the fields. */
  lemma FieldsAfterSpace(c: char, s: string)
    requires IsSpace(c)
    ensures Fields([c] + s) == Fields(s)
  {
    var t := [c] + s;
    assert SpacePrefixLen(t) == 1 + SpacePrefixLen(s);
    assert t[SpacePrefixLen(t)..] == s[SpacePrefixLen(s)..];
  }

  /** A word followed by white space (or by nothing) is the first field. */
  lemma FieldsOfWord(w: string, tail: string)
    requires |w| > 0 && NoSpace(w)
    requires |tail| > 0 ==> IsSpace(tail[0])
    ensures Fields(w + tail) == [w] + Fields(tail)
  {
    var s := w + tail;
    assert SpacePrefixLen(s) == 0 by { assert s[0] == w[0]; }
    assert s[0..] == s;
    assert s[..|w|] == w;
    assert WordPrefixLen(s) == |w|;
    assert s[|w|..] == tail;
  }

  /** Every element is a nonempty run of non-space characters. */
  predicate Words(ws: seq<string>)
  {
    forall k :: 0 <= k < |ws| ==> |ws[k]| > 0 && NoSpace(ws[k])
  }

  /** Splitting a single-space join of words gives the words back. */
  lemma {:induction false} FieldsOfJoin(ws: seq<string>)
    requires Words(ws)
    ensures Fields(Join(ws, " ")) == ws
  {
    if |ws| == 1 {
      FieldsOfWord(ws[0], "");
      assert ws[0] + "" == ws[0];
    } else if |ws| > 1 {
      WordsTail(ws);
      FieldsOfWordSpace(ws[0], Join(ws[1..], " "));
      FieldsOfJoin(ws[1..]);
    }
  }

  lemma WordsTail(ws: seq<string>)
    requires Words(ws) && |ws| > 0
    ensures Words(ws[1..])
  {
    forall k | 0 <= k < |ws| - 1 ensures |ws[1..][k]| > 0 && NoSpace(ws[1..][k]) {
      assert ws[1..][k] == ws[k + 1];
    }
  }

  lemma FieldsOfWordSpace(w: string, rest: string)
    requires |w| > 0 && NoSpace(w)
    ensures Fields(w + " " + rest) == [w] + Fields(rest)
  {
    FieldsOfWord(w, " " + rest);
    FieldsAfterSpace(' ', rest);
    assert w + " " + rest == w + (" " + rest);
    assert " " + rest == [' '] + rest;
  }

  // ---------------------------------------------------------------------
  // strings.Join
  // ---------------------------------------------------------------------

  /** strings.Join: the elements in order with `sep` between neighbours. */
  function Join(ss: seq<string>, sep: string): string
  {
    if |ss| == 0 then ""
    else if |ss| == 1 then ss[0]
    else ss[0] + sep + Join(ss[1..], sep)
  }

  /** Sum of the lengths of the elements. */
  function TotalLength(ss: seq<string>): nat
  {
    if |ss| == 0 then 0 else |ss[0]| + TotalLength(ss[1..])
  }

  /** A join of n >= 1 elements is as long as the elements plus n - 1 separators. */
  lemma {:induction false} JoinLength(ss: seq<string>, sep: string)
    requires |ss| >= 1
    ensures |Join(ss, sep)| == TotalLength(ss) + (|ss| - 1) * |sep|
  {
    if |ss| > 1 {
      JoinLength(ss[1..], sep);
    }
  }

  /** A join splits at any inner element boundary into the joins of both sides. */
  lemma {:induction false} JoinSplit(ss: seq<string>, sep: string, i: nat)
    requires 0 < i < |ss|
    ensures Join(ss, sep) == Join(ss[..i], sep) + sep + Join(ss[i..], sep)
  {
    if i > 1 {
      JoinSplit(ss[1..], sep, i - 1);
      assert ss[1..][..i - 1] == ss[1..i];
      assert ss[1..][i - 1..] == ss[i..];
      assert Join(ss[..i], sep) == ss[0] + sep + Join(ss[1..i], sep) by {
        assert ss[..i][1..] == ss[1..i];
      }
    } else {
      assert ss[..1] == [ss[0]];
    }
  }
}

=== FILE: time.dfy ===
/** time.go: the time module's configuration and its producer, which sends
    the start time and then every tick's time, tagged with its id, until
    `done` arrives. */
module Time {
  import opened Outcomes
  import opened JsonValue
  import opened Producer

  /** A point in time, in nanoseconds; its clock rendering is not modelled. */
  type Instant = int

  /** The tick period, in nanoseconds as a `time.Duration`. */
  datatype TimeConfig = TimeConfig(period: int)

  /** NewTimeConfig: the configuration and an error; on error the
      configuration is the zero value. */
  function NewTimeConfig(m: map<string, Json>): (r: (TimeConfig, Option<string>))
    ensures r.1.None? <==> NumberField(m, "period_ms").Some? && Trunc(NumberField(m, "period_ms").value) >= 1
    ensures r.1.None? ==> r.0.period == Trunc(m["period_ms"].n) * Millisecond
    ensures r.1.Some? ==> r == (TimeConfig(0), Some("invalid period in time config"))
  {
    match PeriodMs(m)
    case Some(ms) => (TimeConfig(ms * Millisecond), None)
    case None => (TimeConfig(0), Some("invalid period in time config"))
  }

  /** The statuses the producer sends: the start time, then the time of
      every tick before the first `done`, each tagged with `id`. */
  function Emissions(id: int, start: Instant, evs: seq<Event<Instant>>): (r: seq<Tagged<Instant>>)
    ensures var s := Samples(UntilDone(evs));
              |r| == 1 + |s| && r[0] == Tagged(id, start)
              && forall k :: 0 <= k < |s| ==> r[k + 1] == Tagged(id, s[k])
  {
    assert Handled(evs, true) == UntilDone(evs);
    Periodic(start, evs, true, (t: Instant) => Tagged(id, t))
  }

  /** The time producer stops at the first `done`: nothing after it is sent. */
  lemma StopsAtDone(id: int, start: Instant, a: seq<Event<Instant>>, b: seq<Event<Instant>>)
    requires forall k :: 0 <= k < |a| ==> a[k].Tick?
    ensures Emissions(id, start, a + [Done] + b) == Emissions(id, start, a)
  {
    UntilDoneOfTicks(a, b);
    var r1, r2 := Emissions(id, start, a + [Done] + b), Emissions(id, start, a);
    var s := Samples(a);
    assert |r1| == |r2|;
    forall k | 0 <= k < |r1| ensures r1[k] == r2[k] {
      if k > 0 { assert r1[k] == Tagged(id, s[k - 1]) == r2[k]; }
    }
  }

  /** Every status the producer sends carries its id. */
  lemma AllTagged(id: int, start: Instant, evs: seq<Event<Instant>>)
    ensures forall k :: 0 <= k < |Emissions(id, start, evs)| ==> Emissions(id, start, evs)[k].id == id
  {
    var r := Emissions(id, start, evs);
    var s := Samples(UntilDone(evs));
    forall k | 0 <= k < |r| ensures r[k].id == id {
      if k > 0 { assert r[k] == Tagged(id, s[k - 1]); }
    }
  }
}
